=== FILE: README.md ===
# A verified model of the quadruped URDF generator

This project models the two components that turn three box-dimension triples into a URDF robot description.

- **The document builder** is `URDFWrapper`. One construction of the wrapper is one `Branch` call, which takes the file and returns it:
  - a `start` call replaces the file with the XML declaration and the opening `robot` tag;
  - `materials`, `link` and `joint` calls append a title comment and then their block;
  - an `end` call appends the closing tag;
  - any other branch type changes nothing.
- **The file** is a sequence of records, one per `write_print` call.
- **Box mass and inertia** are derived with exact reals. The mass is volume × 1000; the inertia is the diagonal box inertia.
- **How numbers become text** is a parameter (`Numerals`) of every call:
  - `fixed3` is the three-decimal format;
  - `plain` is the bare format.

  Statements about block structure therefore hold whatever the digits are.
- **The layout engine** is `QbotGenerator.__init__`. It:
  - checks that each dimension argument is a triple;
  - selects the model (`dog` or `mantis`), which fixes the hip axis and, for `mantis`, reverses the leg triple;
  - maps a leg index to a quadrant;
  - derives the hip, leg, knee and foot origins;
  - issues the fixed sequence of builder calls, and fills the `link_map` and `joint_map` dictionaries.
- **The generation document** is `Document`. It runs the calls of a generation against a file, one after the other. A valid generation always leaves the same 335-record document, whatever the file held before. An invalid argument leaves the file untouched.

Modules:

- `Geometry` (geometry.dfy): 3-vectors, box mass and inertia.
- `Markup` (markup.dfy): reads single-attribute lines back, the inverse of writing them.
- `UrdfWrapper` (urdf_wrapper.dfy): lines, blocks and the `Branch` dispatch.
- `QbotGenerator` (qbot_generator.dfy): quadrants, origins, layout, the call sequence, the maps and input checking.
- `QbotProperties` (qbot_properties.dfy): what the call sequence guarantees. This covers order, names, references and the maps.
- `Document` (document.dfy): running the calls, and the document they leave.

## Model

| member | source | states |
|---|---|---|
| Geometry.BoxMass | urdf_wrapper/main.py:76-79 | A box whose three dimensions are positive has a positive mass. |
| Geometry.ProductPositive | urdf_wrapper/main.py:77 | A box whose three dimensions are positive has a positive volume. |
| Geometry.BoxInertia | urdf_wrapper/main.py:80-81 | For positive dimensions all three moments are positive and satisfy the triangle inequalities of a physical body. The moments sum to mass / 6 times the sum of the squared dimensions. |
| Geometry.MassIncreasesInX | urdf_wrapper/main.py:77-79 | Making a positive box longer strictly increases its mass. |
| Geometry.MassIncreasesInY | urdf_wrapper/main.py:77-79 | Making a positive box wider strictly increases its mass. |
| Geometry.MassIncreasesInZ | urdf_wrapper/main.py:77-79 | Making a positive box taller strictly increases its mass. |
| Geometry.MassScalesLinearly | urdf_wrapper/main.py:77-79 | Scaling any one dimension by k scales the mass by k. |
| Geometry.CubeInertia | urdf_wrapper/main.py:80-81 | A cube has three equal moments, each mass × side² / 6. |
| Geometry.InertiaSwap | urdf_wrapper/main.py:80-81 | Exchanging width and height of a box exchanges its first two moments and keeps the third. |
| UrdfWrapper.Branch | urdf_wrapper/main.py:47-63 | `start`: the file becomes exactly the declaration and `<robot name=...>`. Any other type: the prior contents stay as a prefix. `end`: appends `</robot>` and nothing else. Unknown type: the file is unchanged. `link`, `joint` and `materials`: the first new record is the title comment. The call raises exactly when it is a link whose shape is not a box, and then it leaves only the comment behind. |
| UrdfWrapper.StartReplaces | urdf_wrapper/main.py:57-61 | What `start` leaves does not depend on what the file held: the two header lines with the robot's name. |
| UrdfWrapper.OthersAppend | urdf_wrapper/main.py:47-56 | Every type but `start` appends exactly what it would write to an empty file. Whether it raises does not depend on the prior contents. |
| UrdfWrapper.Link | urdf_wrapper/main.py:76-90 | A link element is written exactly when the shape is `box`. `sphere` fails its float assertion, any other shape raises `Invalid Shape`, and neither writes any line of the element. |
| UrdfWrapper.InvalidShapeWritesOnlyTitle | urdf_wrapper/main.py:89-90 | An unknown shape raises after the title comment, and no record it leaves is the `<link name=...>` line. |
| UrdfWrapper.LinkAppends | urdf_wrapper/main.py:48-50 | A box link call appends its title comment and then the 28-line link element: 29 records. |
| UrdfWrapper.LinkLines | urdf_wrapper/main.py:92-97 | The link element of a box has 28 lines. |
| UrdfWrapper.LinkBlockOrder | urdf_wrapper/main.py:92-97 | The link element is, in order: the opening line with the name, visual, collision, inertial with the box's mass and inertia, contact, `</link>`. |
| UrdfWrapper.GeometryLines | urdf_wrapper/main.py:152-160 | The geometry element of a box has 3 lines. Its middle line reads back as a `box size` line giving the three sizes with three decimals. |
| UrdfWrapper.VisualLines | urdf_wrapper/main.py:118-125 | The visual element has 7 lines: the geometry element at lines 1-3, then an origin line that reads back as the origin with three decimals and zero rotation, then a material reference that reads back as the link's colour. |
| UrdfWrapper.CollisionLines | urdf_wrapper/main.py:127-133 | The collision element has 6 lines: the same geometry element at lines 1-3 and an origin line that reads back as the origin with three decimals. |
| UrdfWrapper.InertiaLines | urdf_wrapper/main.py:177-182 | The inertia element has 4 lines. The three lines after `<inertia` read back as the ixx, iyy and izz moments, each framed by its off-diagonal `0.0` terms. |
| UrdfWrapper.InertialLines | urdf_wrapper/main.py:143-150 | The inertial element has 7 lines. The mass line reads back as the mass with three decimals, and lines 2-5 are the inertia element. |
| UrdfWrapper.LinkGeometryReadBack | urdf_wrapper/main.py:152-182 | In a box's link element, the size lines of the visual and collision elements (lines 3 and 10) both give the box size, and their origin lines (5 and 12) both give the origin. Lines 17-19 give the box's three principal moments. |
| UrdfWrapper.DefaultBranch | urdf_wrapper/main.py:12-26 | A branch left at its defaults has the requested type, is named and titled `NEW BRANCH`, and has the shape `box`. |
| UrdfWrapper.LinkBlockReadBack | urdf_wrapper/main.py:118-133 | Reading the element back: the opening line gives the link's name, and the visual material reference gives its colour. The mass line gives the rendered box mass. No line of the collision element is a material reference. |
| UrdfWrapper.CollisionHasNoMaterial | urdf_wrapper/main.py:127-133 | No line of a collision element reads back as a material reference. |
| UrdfWrapper.FixedInertialAndContact | urdf_wrapper/main.py:135-141 | Every link has the same contact block with all four friction values 5. The off-diagonal inertia terms are always the literal `0.0`. |
| UrdfWrapper.JointLines | urdf_wrapper/main.py:107-116 | A joint element has 7 lines. The first reads back as the joint's name and as its type. The second names the parent link and the third the child link. The fourth reads back as the axis, and the fifth as the origin in plain rendering. The sixth is the limit line and the last closes the joint. |
| UrdfWrapper.JointAppends | urdf_wrapper/main.py:51-53 | A joint call appends its title comment and the 7-line joint element: 8 records. |
| UrdfWrapper.JointLimitFixed | urdf_wrapper/main.py:115 | The limit line is the same for every joint and every number rendering: effort 1000.0, velocity 10.0, range -3.14 to 3.14. |
| UrdfWrapper.JointBlockReadBack | urdf_wrapper/main.py:110-111 | Exactly one line of a joint element reads back as a parent reference, giving the parent. Exactly one reads back as a child reference, giving the child. |
| UrdfWrapper.MaterialLines | urdf_wrapper/main.py:102-105 | Each material gives three lines, and material k occupies lines 3k to 3k+2, in the order given. |
| UrdfWrapper.MaterialsAppend | urdf_wrapper/main.py:99-105 | A materials call appends 7 records: the comment, then `blue` with `0 0 0.8 1`, then `white` with `1 1 1 1`. Each material is an opening line, a colour line and a closing line. |
| QbotGenerator.ParseModel | urdf_wrapper/qbot_generator.py:25-33 | A model name is accepted exactly when it is `dog` or `mantis`. |
| QbotGenerator.ParseModelName | urdf_wrapper/qbot_generator.py:25-33 | Parsing a model's name gives back the model. |
| QbotGenerator.ParseModelInverse | urdf_wrapper/qbot_generator.py:25-33 | An accepted name is the name of the model it parses to. |
| QbotGenerator.NumToPos | urdf_wrapper/qbot_generator.py:36-50 | The quadrant is on the right (x = 1) exactly for odd indices, otherwise on the left (x = -1). It is at the front (y = 1) exactly for indices above 1, otherwise at the back (y = -1). Each name agrees with its sign. |
| QbotGenerator.QuadrantIndex | urdf_wrapper/qbot_generator.py:36-50 | Every quadrant stands for an index in 0..3. |
| QbotGenerator.QuadrantRoundTrip | urdf_wrapper/qbot_generator.py:36-50 | Mapping an index 0..3 to its quadrant and back gives the index. |
| QbotGenerator.HipAxis | urdf_wrapper/qbot_generator.py:25-31 | A dog's hips turn about the same axis as its knees (`1 0 0`). A mantis's hips turn about the vertical axis `0 0 1`. |
| QbotGenerator.TagsDistinct | urdf_wrapper/qbot_generator.py:108-109 | The four legs carry four different name suffixes. |
| QbotGenerator.HipOrigin | urdf_wrapper/qbot_generator.py:56-62 | Every hip lies in the base's plane (z = 0). It sits half the base length plus half the leg length out along x, and half the base width out along y, on the side its quadrant's signs give. |
| QbotGenerator.HipLateralSymmetry | urdf_wrapper/qbot_generator.py:56-62 | The hip on the other side of the body has the opposite x and the same y. |
| QbotGenerator.HipLongitudinalSymmetry | urdf_wrapper/qbot_generator.py:56-62 | The hip at the other end of the body has the same x and the opposite y. |
| QbotGenerator.HipsDistinct | urdf_wrapper/qbot_generator.py:56-62 | For a body of positive extent the four hips are at four different places. |
| QbotGenerator.LegOrigin | urdf_wrapper/qbot_generator.py:64-68 | The leg box is centred straight below its hip, half a leg height down; for a leg of positive height that is below the hip. |
| QbotGenerator.KneeOrigin | urdf_wrapper/qbot_generator.py:70-78 | The knee is in the leg's plane (y = 0), at twice the depth of the leg box's centre, which is the bottom face of the leg. A dog knee has x = 0; a mantis knee is offset by half the leg length times its quadrant's x sign. |
| QbotGenerator.FootOrigin | urdf_wrapper/qbot_generator.py:80-84 | The foot box is centred straight below its knee, half a foot height down; for a foot of positive height that is below the knee. |
| QbotGenerator.KneeSide | urdf_wrapper/qbot_generator.py:70-78 | The knee is at y = 0 and at the bottom face of the leg box. A dog knee lies straight below its leg (x = 0). A mantis knee lies outboard, with positive x exactly on the right. |
| QbotGenerator.ComputeLayout | urdf_wrapper/qbot_generator.py:25-84 | The hip axis equals the knee axis exactly for dog, and is `0 0 1` for mantis, whose reversed leg triple reverses back to the argument. The base is at the origin. The four hips lie in the base's plane at half the body's extent on their quadrant's side, so mirroring a quadrant across either axis mirrors its hip. All legs hang alike, half a leg height below the hip, and all feet alike, half a foot height below the knee. Each knee is at the bottom face of its leg. Dog knees lie straight below; for a mantis leg of positive length, the knee is outboard on the right exactly for the right-hand legs. |
| QbotGenerator.HipsMirrored | urdf_wrapper/qbot_generator.py:55-62 | The four hip origins lie in the base's plane, each half the body's extent out on its quadrant's side; mirroring a quadrant laterally negates x and keeps y, and mirroring it longitudinally keeps x and negates y. |
| QbotGenerator.PartsHang | urdf_wrapper/qbot_generator.py:64-84 | All leg origins are equal, and so are all foot origins; each hangs half its box's height straight below its joint, and each knee is at its leg's bottom face. Dog knees have x = 0; with a positive leg length, a mantis knee has positive x exactly on the right-hand legs. |
| QbotGenerator.LegCall | urdf_wrapper/qbot_generator.py:111-118 | The leg call of leg i writes a white box link named `leg` plus the leg's suffix, of the leg dimensions, at that leg's leg origin. |
| QbotGenerator.StartCall | urdf_wrapper/qbot_generator.py:87-89 | The start call names the robot after the model: its name parses back to that model. |
| QbotGenerator.BaseCall | urdf_wrapper/qbot_generator.py:95-101 | The base call writes a blue box link named `base_link`, of the base dimensions, at the base origin. |
| QbotGenerator.EndCall | urdf_wrapper/qbot_generator.py:159-161 | The end call closes the robot that the start call opened: it carries the start call's name, which parses back to the model. |
| QbotGenerator.HipCall | urdf_wrapper/qbot_generator.py:122-131 | The hip call of leg i writes a joint named `hip` plus the suffix, from `base_link` to the leg link. |
| QbotGenerator.FootCall | urdf_wrapper/qbot_generator.py:135-142 | The foot call of leg i writes a white box link named `foot` plus the suffix, of the foot dimensions, at that leg's foot origin. |
| QbotGenerator.KneeCall | urdf_wrapper/qbot_generator.py:146-155 | The knee call of leg i writes a joint named `knee` plus the suffix, from the leg link to the foot link. |
| QbotGenerator.LegGroups | urdf_wrapper/qbot_generator.py:107-157 | The groups of the first n legs have 4n calls. |
| QbotGenerator.LegGroupsAt | urdf_wrapper/qbot_generator.py:107-157 | Among the groups of the first n legs, leg i's leg, hip, foot and knee calls are at positions 4i to 4i+3. |
| QbotGenerator.Calls | urdf_wrapper/qbot_generator.py:87-161 | A generation makes 20 calls. The first starts the document and the last ends it; the second declares the materials and the third writes `base_link`. |
| QbotGenerator.LinkMap | urdf_wrapper/qbot_generator.py:103-144 | After n legs `link_map` has exactly the 2n keys "0" .. "2n-1". |
| QbotGenerator.JointMap | urdf_wrapper/qbot_generator.py:104-157 | After n legs `joint_map` has exactly the 2n keys "0" .. "2n-1". |
| QbotGenerator.FirstNonTriple | urdf_wrapper/qbot_generator.py:22-24 | Finds the first dimension argument that is not a triple, and finds none exactly when all are triples. |
| QbotGenerator.Generate | urdf_wrapper/qbot_generator.py:21-34 | Succeeds exactly when all three arguments are triples and the model is `dog` or `mantis`. Otherwise it reports the first non-triple argument (base, leg, foot) with its length; the unknown-model error is reported exactly when all three are triples. On success the file name is the model plus `.urdf`. The layout is the one computed from the parsed model and the three triples, and the calls and maps are those of that layout. |
| QbotProperties.CallOrder | urdf_wrapper/qbot_generator.py:87-161 | There are 20 calls: start, materials, the base link, then leg, hip, foot and knee for each of legs 0..3, then end. |
| QbotProperties.HeadAt | urdf_wrapper/qbot_generator.py:87-101 | The first three calls are start, materials and the base link; the last is end. |
| QbotProperties.GroupAt | urdf_wrapper/qbot_generator.py:107-157 | The calls of leg i are at positions 3+4i to 6+4i. |
| QbotProperties.CallTypes | urdf_wrapper/qbot_generator.py:87-161 | The branch types in order: start, materials, link, then link, joint, link, joint four times, then end. |
| QbotProperties.GroupNames | urdf_wrapper/qbot_generator.py:111-146 | A leg's calls write the links leg and foot and the joints hip and knee, in that order. |
| QbotProperties.GroupsNames | urdf_wrapper/qbot_generator.py:107-157 | The first n legs write their leg and foot links and their hip and knee joints, leg after leg. |
| QbotProperties.LinkNamesAre | urdf_wrapper/qbot_generator.py:95-143 | The links written are `base_link`, then the leg and foot link of each leg in leg order. |
| QbotProperties.JointNamesAre | urdf_wrapper/qbot_generator.py:122-155 | The joints written are the hip and knee joint of each leg in leg order. |
| QbotProperties.LinkNamesDistinct | urdf_wrapper/qbot_generator.py:95-143 | A generation writes nine links, all with different names. |
| QbotProperties.JointNamesDistinct | urdf_wrapper/qbot_generator.py:122-155 | A generation writes eight joints, all with different names. |
| QbotProperties.JointPositions | urdf_wrapper/qbot_generator.py:122-155 | The only joint calls are the hip and knee calls of the four legs. |
| QbotProperties.HipResolved | urdf_wrapper/qbot_generator.py:126-128 | A hip's parent (`base_link`) and child (its leg link) are links written before it. |
| QbotProperties.KneeResolved | urdf_wrapper/qbot_generator.py:150-152 | A knee's parent (its leg link) and child (its foot link) are links written before it. |
| QbotProperties.JointResolved | urdf_wrapper/qbot_generator.py:122-155 | The joint at any position names two links written before it. |
| QbotProperties.ColoursDeclared | urdf_wrapper/qbot_generator.py:91-142 | Every link is coloured with one of the palette's two materials, `blue` or `white`, and the materials call that declares them comes before it. |
| QbotProperties.NoDanglingReferences | urdf_wrapper/qbot_generator.py:95-157 | Every joint of a generation refers only to links already written. |
| QbotProperties.MaterialsCallWrites | urdf_wrapper/qbot_generator.py:91-93 | The second call of a generation is the materials call. It appends the `MATERIALS` title comment and the declarations of both palette colours, and does not raise. |
| QbotProperties.LinkWiring | urdf_wrapper/qbot_generator.py:95-142 | In the call sequence, position 2 is the blue base box of the base dimensions at the base origin. For each leg, positions 3+4i and 5+4i are white boxes of the leg and foot dimensions, at that leg's leg and foot origins. |
| QbotProperties.JointWiring | urdf_wrapper/qbot_generator.py:122-155 | Hips are revolute joints from the base to the leg, about the model's hip axis, at the hip origin. Knees are revolute joints from leg to foot, about `1 0 0`, at the knee origin. |
| QbotProperties.AllBoxes | urdf_wrapper/qbot_generator.py:95-142 | Every link of a generation is a box, so no call of it raises. |
| QbotProperties.StartsOnlyFirst | urdf_wrapper/qbot_generator.py:87-161 | Only the first call starts the document. |
| QbotProperties.LinkMapAt | urdf_wrapper/qbot_generator.py:119-143 | Once leg i is written, key 2i holds its leg link and key 2i+1 its foot link. |
| QbotProperties.JointMapAt | urdf_wrapper/qbot_generator.py:132-156 | Once leg i is written, key 2i holds its hip joint and key 2i+1 its knee joint. |
| QbotProperties.MapsMatchCalls | urdf_wrapper/qbot_generator.py:103-157 | Both maps have the 8 keys "0" .. "7". Key k names the (k+1)-th link written (after the base) and the k-th joint written. |
| Document.Run | urdf_wrapper/qbot_generator.py:87-161 | When no call starts a document, the prior contents stay a prefix of the file. |
| Document.RunRaises | urdf_wrapper/main.py:89-90 | A sequence of calls raises exactly when one of its calls is a link of a shape other than box. |
| Document.RunWrites | urdf_wrapper/main.py:47 | Calls that neither start nor raise leave the prior contents followed by what each call writes on its own, in call order. |
| Document.GroupWrites | urdf_wrapper/qbot_generator.py:111-157 | A leg group writes 74 records: the leg link, hip joint, foot link and knee joint, each with its title. |
| Document.GroupsSlice | urdf_wrapper/qbot_generator.py:107-157 | The groups of the first n legs write 74n records, with leg i's records at 74i to 74i+73. |
| Document.GenerationDocument | urdf_wrapper/qbot_generator.py:87-161 | A generation's calls never raise. Whatever the file held, they leave the declaration, the robot tag, the materials, the base link, each leg's group and the closing tag. |
| Document.DocumentLines | urdf_wrapper/qbot_generator.py:87-161 | The document of a generation has 335 records: the declaration, the robot tag naming the model, and last `</robot>`. |
| Document.DocumentShape | urdf_wrapper/qbot_generator.py:87-161 | The document has 335 records. The declaration and robot tag come first, the materials at 2-8, the base title at 9, the base link at 10-37, the leg groups at 38-333 and `</robot>` at 334. |
| Document.LegGroupPlace | urdf_wrapper/qbot_generator.py:107-157 | Leg i's group occupies records 38+74i to 111+74i of the document. |
| Document.Generate | urdf_wrapper/qbot_generator.py:21-33 | The generator's result, together with the file after it. An invalid argument leaves the file as it was. |
| Document.GenerateWritesDocument | urdf_wrapper/qbot_generator.py:86-161 | A valid generation leaves exactly the document of the layout computed from its arguments: 335 records that do not depend on the prior file. They start with the declaration and the robot tag naming the model, and end with `</robot>`. |

## Left out

- **Filesystem operations.** Creating the `urdf` directory, the `urdf/` path prefix, opening in append mode, reopening in write mode to truncate, and closing (urdf_wrapper/main.py:28-29, 34, 47, 58-59, 64) are not modelled. The file is a value that each call transforms.
- **The `DEBUG` echo** to the terminal (urdf_wrapper/main.py:8, 69-70) is left out. It is a side channel and is off.
- **Runtime type checks.** The `isinstance` checks (urdf_wrapper/main.py:78, 144, 173; urdf_wrapper/qbot_generator.py:23) are not modelled. Dimensions are reals here, so a box given integer dimensions (which fails the float assertion of `URDFWrapper.link`) cannot be expressed. Only the length of each dimension argument is checked.
- **Arguments left as None.** A link without a size or origin, or a joint without an origin, raises a `TypeError` in `URDFWrapper` (for a link, at urdf_wrapper/main.py:77, after the title comment); these are not modelled. Every argument has a value: the defaults are a zero vector or the text `None`. The generator always supplies the arguments each branch reads.
- **The sphere branch** (urdf_wrapper/main.py:82-88, 157-158) is modelled only as a failure after the title comment. With a radius, `assert volume is float` always fails; without one, the power raises first. The model uses one error value for both cases and does not model the radius, `pi`, or the sphere's mass and inertia.
- **Number rendering.** The exact digits of `{:.3f}` and `{}` are the `Numerals` parameter. The code's choice of format is kept: sizes, link origins and mass use three decimals; joint origins and inertia are plain.
- **Floating-point rounding.** It is not modelled; the arithmetic is exact over the reals.
- **numpy arrays and the `params` record.** The arrays are real triples and sequences of them. The `params` record (urdf_wrapper/qbot_generator.py:163-174) is bookkeeping and is not modelled; the generation result carries the same data.
- **A call that raises** leaves the file without its `close`. The model keeps the records written before the exception.
- **Box inertia** is (mass/12)·(s0²+s1², s0²+s2², s1²+s2²), as urdf_wrapper/main.py:80-81 computes it.
- **The mass line** is written with three decimals, as urdf_wrapper/main.py:174 formats it.
- **The joint block** is 7 lines (urdf_wrapper/main.py:109-116). With its title comment, a joint call writes 8 records.
- UrdfWrapper.LinkLines: its own contract states only the number of lines. The contents are stated by UrdfWrapper.LinkBlockOrder, UrdfWrapper.LinkBlockReadBack, UrdfWrapper.LinkGeometryReadBack and UrdfWrapper.FixedInertialAndContact.
- Document.Run: its own contract states only that an appending run keeps the prior contents as a prefix. What it writes is stated by Document.RunWrites and Document.RunRaises.

=== FILE: document.dfy ===
/**
 The document a generation leaves in its file. Each builder call opens the
 file, writes its records and closes it again, so the calls act in order on
 one shared file; an exception ends the sequence with the records written so
 far. The first call truncates the file, so the result does not depend on
 what the file held before.
 */
module Document {
  import opened UrdfWrapper
  import opened QbotGenerator
  import opened QbotProperties

  // ---------------------------------------------------------------------------
  // Running a sequence of builder calls

  /** A call that raises: a link whose shape is not a box. */
  predicate Raises(args: BranchArgs) {
    args.branchType == "link" && args.shape != "box"
  }

  /** No call raises. */
  predicate Safe(calls: seq<BranchArgs>) {
    forall k :: 0 <= k < |calls| ==> !Raises(calls[k])
  }

  /** No call truncates the file. */
  predicate Appending(calls: seq<BranchArgs>) {
    forall k :: 0 <= k < |calls| ==> calls[k].branchType != "start"
  }

  /** The calls applied in order to `file`, stopping at the first that raises. */
  function Run(num: Numerals, calls: seq<BranchArgs>, file: seq<string>): (r: Written)
    ensures Appending(calls) ==> file <= r.file
    decreases |calls|
  {
    if |calls| == 0 then Written(file)
    else
      match Branch(num, calls[0], file)
      case Written(next) =>
        assert Appending(calls) ==> Appending(calls[1..]) by {
          if Appending(calls) {
            forall k | 0 <= k < |calls[1..]| ensures calls[1..][k].branchType != "start" {
              assert calls[1..][k] == calls[k + 1];
            }
          }
        }
        Run(num, calls[1..], next)
      case Raised(e, partial) => Raised(e, partial)
  }

  /** What a call writes when the file is empty; every call but `start` appends exactly this. */
  function Emitted(num: Numerals, args: BranchArgs): seq<string> {
    Branch(num, args, []).file
  }

  /** `Emitted` under one number rendering, as a function of the call alone. */
  function Emitter(num: Numerals): BranchArgs -> seq<string> {
    args => Emitted(num, args)
  }

  /** The records of the calls, one call after the other, each as `write` gives it. */
  function Writes(write: BranchArgs -> seq<string>, calls: seq<BranchArgs>): seq<string>
    decreases |calls|
  {
    if |calls| == 0 then [] else write(calls[0]) + Writes(write, calls[1..])
  }

  /** A sequence of calls raises exactly when one of its calls does. */
  lemma {:induction false} RunRaises(num: Numerals, calls: seq<BranchArgs>, file: seq<string>)
    ensures Run(num, calls, file).Raised? <==> exists k :: 0 <= k < |calls| && Raises(calls[k])
    decreases |calls|
  {
    if |calls| > 0 {
      var first := Branch(num, calls[0], file);
      if first.Written? {
        RunRaises(num, calls[1..], first.file);
        if exists k :: 0 <= k < |calls| && Raises(calls[k]) {
          var k :| 0 <= k < |calls| && Raises(calls[k]);
          assert k > 0;
          assert Raises(calls[1..][k - 1]);
        }
        if exists k :: 0 <= k < |calls[1..]| && Raises(calls[1..][k]) {
          var k :| 0 <= k < |calls[1..]| && Raises(calls[1..][k]);
          assert Raises(calls[k + 1]);
        }
      } else {
        assert Raises(calls[0]);
      }
    }
  }

  /**
   Calls that neither truncate nor raise append, one after the other, what
   each writes on its own; what was in the file stays in front.
   */
  lemma {:induction false} RunWrites(num: Numerals, calls: seq<BranchArgs>, file: seq<string>)
    requires Appending(calls) && Safe(calls)
    ensures Run(num, calls, file) == Written(file + Writes(Emitter(num), calls))
    decreases |calls|
  {
    if |calls| > 0 {
      var next := file + Emitted(num, calls[0]);
      FirstAppends(num, calls, file);
      RestSafe(calls);
      RunWrites(num, calls[1..], next);
      WritesFirst(Emitter(num), calls);
      Assoc(file, Emitted(num, calls[0]), Writes(Emitter(num), calls[1..]));
    }
  }

  lemma WritesFirst(write: BranchArgs -> seq<string>, calls: seq<BranchArgs>)
    requires |calls| > 0
    ensures Writes(write, calls) == write(calls[0]) + Writes(write, calls[1..])
  {
  }

  lemma Assoc(a: seq<string>, b: seq<string>, c: seq<string>)
    ensures a + b + c == a + (b + c)
  {
  }

  lemma FirstAppends(num: Numerals, calls: seq<BranchArgs>, file: seq<string>)
    requires |calls| > 0 && Appending(calls) && Safe(calls)
    ensures Run(num, calls, file) == Run(num, calls[1..], file + Emitted(num, calls[0]))
  {
    assert calls[0].branchType != "start" && !Raises(calls[0]);
    OthersAppend(num, calls[0], file);
  }

  lemma RestSafe(calls: seq<BranchArgs>)
    requires |calls| > 0 && Appending(calls) && Safe(calls)
    ensures Appending(calls[1..]) && Safe(calls[1..])
  {
    forall k | 0 <= k < |calls[1..]|
      ensures calls[1..][k].branchType != "start" && !Raises(calls[1..][k])
    {
      assert calls[1..][k] == calls[k + 1];
    }
  }

  /** Writing two call sequences one after the other writes their records one after the other. */
  lemma {:induction false} WritesAppend(write: BranchArgs -> seq<string>, a: seq<BranchArgs>, b: seq<BranchArgs>)
    ensures Writes(write, a + b) == Writes(write, a) + Writes(write, b)
    decreases |a|
  {
    if |a| > 0 {
      assert (a + b)[0] == a[0];
      assert (a + b)[1..] == a[1..] + b;
      WritesAppend(write, a[1..], b);
    } else {
      assert a + b == b;
    }
  }

  /** Four calls write what each writes, in order. */
  lemma WritesFour(write: BranchArgs -> seq<string>, a: BranchArgs, b: BranchArgs, c: BranchArgs, d: BranchArgs)
    ensures Writes(write, [a, b, c, d]) == write(a) + write(b) + write(c) + write(d)
  {
    assert [d][1..] == [];
    assert Writes(write, [d]) == write(d) + Writes(write, []) == write(d);
    assert [c, d][1..] == [d];
    assert Writes(write, [c, d]) == write(c) + write(d);
    assert [b, c, d][1..] == [c, d];
    assert Writes(write, [b, c, d]) == write(b) + (write(c) + write(d));
    assert [a, b, c, d][1..] == [b, c, d];
  }

  // ---------------------------------------------------------------------------
  // The document of a generation

  /** The records a leg group writes: leg link, hip joint, foot link, knee joint. */
  function GroupLines(num: Numerals, g: Layout4, i: int): seq<string>
    requires 0 <= i < 4
  {
    Emitted(num, LegCall(g, i)) + Emitted(num, HipCall(g, i))
      + Emitted(num, FootCall(g, i)) + Emitted(num, KneeCall(g, i))
  }

  /** A leg group writes 74 records: two links of 29 and two joints of 8. */
  lemma GroupWrites(num: Numerals, g: Layout4, i: int)
    requires 0 <= i < 4
    ensures Writes(Emitter(num), LegGroup(g, i)) == GroupLines(num, g, i)
    ensures |GroupLines(num, g, i)| == 74
  {
    GroupOfFour(num, LegCall(g, i), HipCall(g, i), FootCall(g, i), KneeCall(g, i));
  }

  /** A box link, a joint, a box link and a joint write their records in order: 74 in all. */
  lemma GroupOfFour(num: Numerals, a: BranchArgs, b: BranchArgs, c: BranchArgs, d: BranchArgs)
    requires a.branchType == "link" && a.shape == "box" && c.branchType == "link" && c.shape == "box"
    requires b.branchType == "joint" && d.branchType == "joint"
    ensures Writes(Emitter(num), [a, b, c, d])
         == Emitted(num, a) + Emitted(num, b) + Emitted(num, c) + Emitted(num, d)
    ensures |Emitted(num, a) + Emitted(num, b) + Emitted(num, c) + Emitted(num, d)| == 74
  {
    WritesFour(Emitter(num), a, b, c, d);
    LinkAppends(num, a, []);
    JointAppends(num, b, []);
    LinkAppends(num, c, []);
    JointAppends(num, d, []);
  }

  /** Under `write`, every leg group writes 74 records. */
  predicate GroupsSized(write: BranchArgs -> seq<string>, g: Layout4) {
    forall j :: 0 <= j < 4 ==> |Writes(write, LegGroup(g, j))| == 74
  }

  lemma EmitterGroupsSized(num: Numerals, g: Layout4)
    ensures GroupsSized(Emitter(num), g)
  {
    forall j | 0 <= j < 4
      ensures |Writes(Emitter(num), LegGroup(g, j))| == 74
    {
      GroupWrites(num, g, j);
    }
  }

  /** The groups of legs 0 .. n-1 write 74 n records. */
  lemma {:induction false} GroupsSize(write: BranchArgs -> seq<string>, g: Layout4, n: nat)
    requires n <= 4 && GroupsSized(write, g)
    ensures |Writes(write, LegGroups(g, n))| == 74 * n
    decreases n
  {
    if n > 0 {
      GroupsSize(write, g, n - 1);
      GroupsStep(write, g, n);
    }
  }

  /** The groups of legs 0 .. n-1 write those of legs 0 .. n-2, then leg n-1's. */
  lemma GroupsStep(write: BranchArgs -> seq<string>, g: Layout4, n: nat)
    requires 0 < n <= 4
    ensures Writes(write, LegGroups(g, n))
         == Writes(write, LegGroups(g, n - 1)) + Writes(write, LegGroup(g, n - 1))
  {
    WritesAppend(write, LegGroups(g, n - 1), LegGroup(g, n - 1));
  }

  /** Group i occupies records 74 i .. 74 i + 73 of what the groups write. */
  lemma {:induction false} GroupsSlice(write: BranchArgs -> seq<string>, g: Layout4, n: nat, i: nat)
    requires i < n <= 4 && GroupsSized(write, g)
    ensures |Writes(write, LegGroups(g, n))| == 74 * n
    ensures Writes(write, LegGroups(g, n))[74 * i..74 * i + 74] == Writes(write, LegGroup(g, i))
    decreases n
  {
    var front, last := Writes(write, LegGroups(g, n - 1)), Writes(write, LegGroup(g, n - 1));
    GroupsStep(write, g, n);
    GroupsSize(write, g, n - 1);
    assert |last| == 74;
    if i < n - 1 {
      GroupsSlice(write, g, n - 1, i);
    }
    SliceStep(front, last, Writes(write, LegGroups(g, n)), Writes(write, LegGroup(g, i)), n, i);
  }

  /** Group i of n, when the first n-1 groups are `front` and the last is `last`. */
  lemma SliceStep(front: seq<string>, last: seq<string>, all: seq<string>, group: seq<string>, n: nat, i: nat)
    requires all == front + last && |front| == 74 * (n - 1) && |last| == 74 && i < n
    requires i < n - 1 ==> front[74 * i..74 * i + 74] == group
    requires i == n - 1 ==> last == group
    ensures |all| == 74 * n && all[74 * i..74 * i + 74] == group
  {
    if i < n - 1 {
      SliceOfFront(front, last, all, 74 * i, 74 * i + 74);
    } else {
      GroupSliceAt(front, last, all, i);
    }
  }

  lemma SliceOfFront(p: seq<string>, q: seq<string>, r: seq<string>, lo: nat, hi: nat)
    requires r == p + q && lo <= hi <= |p|
    ensures r[lo..hi] == p[lo..hi]
  {
  }

  lemma GroupSliceAt(p: seq<string>, q: seq<string>, r: seq<string>, i: nat)
    requires r == p + q && |p| == 74 * i && |q| == 74
    ensures r[74 * i..74 * i + 74] == q
  {
  }

  /** Header, materials, base link, four leg groups, closing tag. */
  function DocumentLines(num: Numerals, g: Layout4): (r: seq<string>)
    ensures |r| == 335
    ensures r[0] == XmlDeclaration && r[1] == RobotOpen(ModelName(g.model)) && r[334] == RobotClose
  {
    var header := [XmlDeclaration, RobotOpen(ModelName(g.model))];
    var materials, base := Emitted(num, MaterialsCall), Emitted(num, BaseCall(g));
    var groups := Writes(Emitter(num), LegGroups(g, 4));
    MaterialsSize(num);
    BaseWrites(num, g);
    EmitterGroupsSized(num, g);
    GroupsSize(Emitter(num), g, 4);
    DocumentParts(header, materials, base, groups, [RobotClose], header + materials + base + groups + [RobotClose]);
    header + materials + base + groups + [RobotClose]
  }

  /** After the start call, the calls write materials, base, the groups and the end call's records. */
  lemma TailWrites(write: BranchArgs -> seq<string>, g: Layout4)
    ensures Writes(write, Calls(g)[1..])
         == write(MaterialsCall) + write(BaseCall(g)) + Writes(write, LegGroups(g, 4)) + write(EndCall(g.model))
  {
    DropFirst(StartCall(g.model), MaterialsCall, BaseCall(g), LegGroups(g, 4), EndCall(g.model));
    WritesParts(write, MaterialsCall, BaseCall(g), LegGroups(g, 4), EndCall(g.model));
  }

  lemma DropFirst<T>(a: T, b: T, c: T, middle: seq<T>, e: T)
    ensures ([a, b, c] + middle + [e])[1..] == [b, c] + middle + [e]
  {
  }

  /** Two calls, a run of calls and one more write what each writes, in order. */
  lemma WritesParts(write: BranchArgs -> seq<string>, a: BranchArgs, b: BranchArgs, middle: seq<BranchArgs>, e: BranchArgs)
    ensures Writes(write, [a, b] + middle + [e]) == write(a) + write(b) + Writes(write, middle) + write(e)
  {
    var head, end := [a, b], [e];
    WritesAppend(write, head + middle, end);
    WritesAppend(write, head, middle);
    assert head[1..][1..] == [];
    assert Writes(write, head[1..]) == write(b);
    assert end[1..] == [];
    assert Writes(write, end) == write(e);
  }

  /**
   A generation's calls never raise and leave the same document whatever the
   file held before: the XML declaration, the robot element named after the
   model, the materials, the base link, one group per leg, and the closing tag.
   */
  lemma GenerationDocument(num: Numerals, g: Layout4, prior: seq<string>)
    ensures Run(num, Calls(g), prior) == Written(DocumentLines(num, g))
  {
    var header := [XmlDeclaration, RobotOpen(ModelName(g.model))];
    RunFromStart(num, g, prior);
    TailSafe(g);
    RunWrites(num, Calls(g)[1..], header);
    TailDocument(num, g);
  }

  /** The header followed by what the calls after the start write is the whole document. */
  lemma TailDocument(num: Numerals, g: Layout4)
    ensures [XmlDeclaration, RobotOpen(ModelName(g.model))] + Writes(Emitter(num), Calls(g)[1..])
         == DocumentLines(num, g)
  {
    TailWrites(Emitter(num), g);
    EndWrites(num, g.model);
    Regroup([XmlDeclaration, RobotOpen(ModelName(g.model))], Emitted(num, MaterialsCall),
            Emitted(num, BaseCall(g)), Writes(Emitter(num), LegGroups(g, 4)), [RobotClose]);
  }

  /** The end call writes the closing tag alone. */
  lemma EndWrites(num: Numerals, model: Model)
    ensures Emitter(num)(EndCall(model)) == [RobotClose]
  {
  }

  lemma Regroup(a: seq<string>, b: seq<string>, c: seq<string>, d: seq<string>, e: seq<string>)
    ensures a + (b + c + d + e) == a + b + c + d + e
  {
  }

  /** The start call replaces whatever the file held by the header. */
  lemma RunFromStart(num: Numerals, g: Layout4, prior: seq<string>)
    ensures Run(num, Calls(g), prior)
         == Run(num, Calls(g)[1..], [XmlDeclaration, RobotOpen(ModelName(g.model))])
  {
    HeadAt(g);
  }

  /** After the start call, no call of a generation truncates or raises. */
  lemma TailSafe(g: Layout4)
    ensures Appending(Calls(g)[1..]) && Safe(Calls(g)[1..])
  {
    var calls := Calls(g);
    StartsOnlyFirst(g);
    AllBoxes(g);
    forall k | 0 <= k < |calls[1..]|
      ensures calls[1..][k].branchType != "start" && !Raises(calls[1..][k])
    {
      assert calls[1..][k] == calls[k + 1];
    }
  }

  /** The document has 335 records, in the layout the calls prescribe. */
  lemma DocumentShape(num: Numerals, g: Layout4)
    ensures var doc := DocumentLines(num, g);
      && |doc| == 335
      && doc[0] == XmlDeclaration && doc[1] == RobotOpen(ModelName(g.model))
      && doc[2..9] == Emitted(num, MaterialsCall)
      && doc[9] == TitleComment("BASE LINK")
      && doc[10..38] == LinkLines(num, BaseCall(g))
      && doc[38..334] == Writes(Emitter(num), LegGroups(g, 4))
      && doc[334] == RobotClose
  {
    MaterialsSize(num);
    BaseWrites(num, g);
    EmitterGroupsSized(num, g);
    GroupsSize(Emitter(num), g, 4);
    DocumentParts([XmlDeclaration, RobotOpen(ModelName(g.model))], Emitted(num, MaterialsCall),
                  Emitted(num, BaseCall(g)), Writes(Emitter(num), LegGroups(g, 4)), [RobotClose],
                  DocumentLines(num, g));
  }

  lemma MaterialsSize(num: Numerals)
    ensures |Emitted(num, MaterialsCall)| == 7
  {
    MaterialsAppend(num, MaterialsCall, []);
  }

  /** The base link call writes its title and the 28 lines of the link. */
  lemma BaseWrites(num: Numerals, g: Layout4)
    ensures |Emitted(num, BaseCall(g))| == 29
    ensures Emitted(num, BaseCall(g))[0] == TitleComment("BASE LINK")
    ensures Emitted(num, BaseCall(g))[1..] == LinkLines(num, BaseCall(g))
  {
    LinkAppends(num, BaseCall(g), []);
    Tail(TitleComment("BASE LINK"), LinkLines(num, BaseCall(g)));
  }

  lemma Tail(x: string, s: seq<string>)
    ensures ([x] + s)[0] == x && ([x] + s)[1..] == s
  {
  }

  /** Where each part of a five-part concatenation lies, for the sizes of a document. */
  lemma DocumentParts(header: seq<string>, materials: seq<string>, base: seq<string>,
                      groups: seq<string>, close: seq<string>, doc: seq<string>)
    requires doc == header + materials + base + groups + close
    requires |header| == 2 && |materials| == 7 && |base| == 29 && |groups| == 296 && |close| == 1
    ensures |doc| == 335
    ensures doc[0] == header[0] && doc[1] == header[1]
    ensures doc[2..9] == materials && doc[9] == base[0] && doc[10..38] == base[1..]
    ensures doc[38..334] == groups && doc[334] == close[0]
  {
    assert doc[9..38] == base;
  }

  /** Leg group i fills records 38 + 74 i .. 112 + 74 i of the document. */
  lemma LegGroupPlace(num: Numerals, g: Layout4, i: int)
    requires 0 <= i < 4
    ensures |DocumentLines(num, g)| == 335
    ensures DocumentLines(num, g)[38 + 74 * i..112 + 74 * i] == GroupLines(num, g, i)
  {
    DocumentGroups(num, g);
    EmitterGroupsSized(num, g);
    GroupsSlice(Emitter(num), g, 4, i);
    GroupWrites(num, g, i);
    GroupInDocument(DocumentLines(num, g), Writes(Emitter(num), LegGroups(g, 4)), GroupLines(num, g, i), i);
  }

  lemma GroupInDocument(doc: seq<string>, groups: seq<string>, group: seq<string>, i: nat)
    requires i < 4 && |doc| == 335 && |groups| == 296 && doc[38..334] == groups
    requires groups[74 * i..74 * i + 74] == group
    ensures doc[38 + 74 * i..112 + 74 * i] == group
  {
    InnerSlice(doc, groups, 38, 74 * i, 74 * i + 74);
  }

  lemma DocumentGroups(num: Numerals, g: Layout4)
    ensures |DocumentLines(num, g)| == 335 && |Writes(Emitter(num), LegGroups(g, 4))| == 296
    ensures DocumentLines(num, g)[38..334] == Writes(Emitter(num), LegGroups(g, 4))
  {
    DocumentShape(num, g);
  }

  lemma InnerSlice(s: seq<string>, t: seq<string>, offset: nat, lo: nat, hi: nat)
    requires lo <= hi <= |t| && offset + |t| <= |s| && s[offset..offset + |t|] == t
    ensures s[offset + lo..offset + hi] == t[lo..hi]
  {
    assert forall k :: lo <= k < hi ==> s[offset + k] == t[k] by {
      forall k | lo <= k < hi ensures s[offset + k] == t[k] {
        assert s[offset..offset + |t|][k] == t[k];
      }
    }
  }

  // ---------------------------------------------------------------------------
  // The generator and its file

  /**
   A generator run: the generation (or the error that stops it) together with
   the file contents afterwards. Validation happens before the first call, so
   an invalid argument leaves the file as it was.
   */
  function Generate(num: Numerals, bDim: seq<real>, lDim: seq<real>, fDim: seq<real>,
                    model: string, prior: seq<string>): (r: (Result<Generation>, seq<string>))
    ensures r.0 == QbotGenerator.Generate(bDim, lDim, fDim, model)
    ensures r.0.Err? ==> r.1 == prior
  {
    var result := QbotGenerator.Generate(bDim, lDim, fDim, model);
    match result
    case Err(_) => (result, prior)
    case Ok(generation) =>
      var run := Run(num, generation.calls, prior);
      (result, run.file)
  }

  /** A valid generation writes the full document, whatever the file held before. */
  lemma GenerateWritesDocument(num: Numerals, bDim: seq<real>, lDim: seq<real>, fDim: seq<real>,
                               model: string, prior: seq<string>)
    requires QbotGenerator.Generate(bDim, lDim, fDim, model).Ok?
    ensures var r := Generate(num, bDim, lDim, fDim, model, prior);
      && r.1 == DocumentLines(num, ComputeLayout(ParseModel(model).value, AsVec3(bDim), AsVec3(lDim), AsVec3(fDim)))
      && |r.1| == 335
      && r.1 == Generate(num, bDim, lDim, fDim, model, []).1
      && r.1[0] == XmlDeclaration && r.1[1] == RobotOpen(model) && r.1[334] == RobotClose
  {
    var generation := QbotGenerator.Generate(bDim, lDim, fDim, model).value;
    var g: Layout4 := generation.layout;
    assert generation.calls == Calls(g);
    GenerationDocument(num, g, prior);
    GenerationDocument(num, g, []);
    DocumentShape(num, g);
  }
}

=== FILE: geometry.dfy ===
/**
 Real-valued 3-vectors and the physical quantities of a solid box of water
 density: its mass and its diagonal (principal) inertia.

 All units are metres and kilograms. Reals are exact here, so the identities
 below are exact; the rounding of Python floats is not modelled.
 */
module Geometry {

  /** A 3-vector: box dimensions (length, width, height) or an origin (x, y, z). */
  datatype Vec3 = Vec3(x: real, y: real, z: real)

  const Zero := Vec3(0.0, 0.0, 0.0)

  /** Density used for every link, in kg per cubic metre (water). */
  const Density: real := 1000.0

  predicate Positive(s: Vec3) {
    s.x > 0.0 && s.y > 0.0 && s.z > 0.0
  }

  function Volume(s: Vec3): real {
    s.x * s.y * s.z
  }

  /** Mass of a box of water density with dimensions `s`. */
  function BoxMass(s: Vec3): (m: real)
    ensures Positive(s) ==> m > 0.0
  {
    ProductPositive(s);
    Volume(s) * Density
  }

  lemma ProductPositive(s: Vec3)
    ensures Positive(s) ==> Volume(s) > 0.0
  {
    if Positive(s) {
      assert s.x * s.y > 0.0;
    }
  }

  /**
   Diagonal inertia of a box with dimensions `s`: with m = mass / 12 it is
   (m (s.x² + s.y²), m (s.x² + s.z²), m (s.y² + s.z²)).
   */
  function BoxInertia(s: Vec3): (inertia: Vec3)
    ensures Positive(s) ==>
      inertia.x > 0.0 && inertia.y > 0.0 && inertia.z > 0.0
    // the three principal moments of a physical body satisfy the triangle inequalities
    ensures Positive(s) ==>
      && inertia.x + inertia.y > inertia.z
      && inertia.x + inertia.z > inertia.y
      && inertia.y + inertia.z > inertia.x
    // the trace is mass / 6 times the sum of squared dimensions
    ensures inertia.x + inertia.y + inertia.z
         == BoxMass(s) / 6.0 * (s.x * s.x + s.y * s.y + s.z * s.z)
  {
    var m, h, d, w := BoxMass(s) / 12.0, s.x * s.x, s.y * s.y, s.z * s.z;
    InertiaFacts(s, m, h, d, w);
    Vec3(m * (h + d), m * (h + w), m * (d + w))
  }

  lemma InertiaFacts(s: Vec3, m: real, h: real, d: real, w: real)
    requires m == BoxMass(s) / 12.0 && h == s.x * s.x && d == s.y * s.y && w == s.z * s.z
    ensures Positive(s) ==> m > 0.0 && h > 0.0 && d > 0.0 && w > 0.0
    ensures m * (h + d) + m * (h + w) + m * (d + w) == 2.0 * m * (h + d + w)
  {
  }

  /** Mass grows strictly with the first dimension when the others are positive. */
  lemma MassIncreasesInX(a: Vec3, b: Vec3)
    requires Positive(a) && a.x < b.x && a.y == b.y && a.z == b.z
    ensures BoxMass(a) < BoxMass(b)
  {
    var yz := a.y * a.z;
    assert yz > 0.0;
    assert Volume(b) - Volume(a) == (b.x - a.x) * yz;
    assert (b.x - a.x) * yz > 0.0;
    assert BoxMass(b) - BoxMass(a) == (Volume(b) - Volume(a)) * Density;
  }

  /** Mass grows strictly with the second dimension when the others are positive. */
  lemma MassIncreasesInY(a: Vec3, b: Vec3)
    requires Positive(a) && a.x == b.x && a.y < b.y && a.z == b.z
    ensures BoxMass(a) < BoxMass(b)
  {
    var xz := a.x * a.z;
    assert xz > 0.0;
    assert Volume(b) - Volume(a) == (b.y - a.y) * xz;
    assert (b.y - a.y) * xz > 0.0;
    assert BoxMass(b) - BoxMass(a) == (Volume(b) - Volume(a)) * Density;
  }

  /** Mass grows strictly with the third dimension when the others are positive. */
  lemma MassIncreasesInZ(a: Vec3, b: Vec3)
    requires Positive(a) && a.x == b.x && a.y == b.y && a.z < b.z
    ensures BoxMass(a) < BoxMass(b)
  {
    var xy := a.x * a.y;
    assert xy > 0.0;
    assert Volume(b) - Volume(a) == (b.z - a.z) * xy;
    assert (b.z - a.z) * xy > 0.0;
    assert BoxMass(b) - BoxMass(a) == (Volume(b) - Volume(a)) * Density;
  }

  /** Scaling one dimension by k scales the mass by k: doubling a side doubles the mass. */
  lemma MassScalesLinearly(s: Vec3, k: real)
    ensures BoxMass(Vec3(k * s.x, s.y, s.z)) == k * BoxMass(s)
    ensures BoxMass(Vec3(s.x, k * s.y, s.z)) == k * BoxMass(s)
    ensures BoxMass(Vec3(s.x, s.y, k * s.z)) == k * BoxMass(s)
  {
    assert Volume(Vec3(k * s.x, s.y, s.z)) == k * Volume(s);
    assert Volume(Vec3(s.x, k * s.y, s.z)) == k * Volume(s);
    assert Volume(Vec3(s.x, s.y, k * s.z)) == k * Volume(s);
  }

  /** A cube has three equal moments, each mass / 6 times the side squared. */
  lemma CubeInertia(a: real)
    ensures var inertia := BoxInertia(Vec3(a, a, a));
      && inertia.x == inertia.y == inertia.z
      && inertia.x == BoxMass(Vec3(a, a, a)) / 6.0 * (a * a)
  {
  }

  /** Exchanging the width and the height of a box exchanges its first two moments and keeps the third. */
  lemma InertiaSwap(s: Vec3)
    ensures var swapped := BoxInertia(Vec3(s.x, s.z, s.y));
      && swapped.x == BoxInertia(s).y
      && swapped.y == BoxInertia(s).x
      && swapped.z == BoxInertia(s).z
  {
    MassSwap(s);
  }

  lemma MassSwap(s: Vec3)
    ensures BoxMass(Vec3(s.x, s.z, s.y)) == BoxMass(s)
  {
    assert s.x * s.z * s.y == s.x * (s.z * s.y) == s.x * (s.y * s.z) == s.x * s.y * s.z;
  }
}

=== FILE: markup.dfy ===
/**
 Reading back the one-attribute lines the document builder writes:
 a line `prefix + value + suffix` is unwrapped to its `value`. This is the
 inverse of writing an attribute, and lets statements about the written
 document be made by scanning it.
 */
module Markup {

  datatype Option<T> = None | Some(value: T)

  predicate StartsWith(line: string, prefix: string) {
    |prefix| <= |line| && line[..|prefix|] == prefix
  }

  predicate EndsWith(line: string, suffix: string) {
    |suffix| <= |line| && line[|line| - |suffix|..] == suffix
  }

  /** The text between `prefix` and `suffix`, when the line is framed by both. */
  function Unwrap(prefix: string, suffix: string, line: string): (r: Option<string>)
    ensures r.Some? ==> line == prefix + r.value + suffix
    ensures r.None? ==>
      forall v: string {:trigger prefix + v + suffix} :: line != prefix + v + suffix
  {
    if |prefix| + |suffix| <= |line| && StartsWith(line, prefix) && EndsWith(line, suffix) then
      var v := line[|prefix|..|line| - |suffix|];
      assert line == line[..|prefix|] + v + line[|line| - |suffix|..];
      Some(v)
    else
      None
  }

  /** Writing an attribute and reading it back gives the value that was written. */
  lemma UnwrapWrap(prefix: string, suffix: string, v: string)
    ensures Unwrap(prefix, suffix, prefix + v + suffix) == Some(v)
  {
    var line := prefix + v + suffix;
    assert line[..|prefix|] == prefix;
    assert line[|line| - |suffix|..] == suffix;
    assert line[|prefix|..|line| - |suffix|] == v;
  }

  /** A line that disagrees with `prefix` at some position cannot be unwrapped with it. */
  lemma DiffersAt(prefix: string, suffix: string, line: string, k: nat)
    requires k < |prefix| && k < |line| && line[k] != prefix[k]
    ensures Unwrap(prefix, suffix, line) == None
  {
  }
}

=== FILE: qbot_generator.dfy ===
/**
 The quadruped layout engine. From three box-dimension triples (base, leg,
 foot) and a model name it derives the origins of every hip, leg, knee and
 foot, and the fixed sequence of builder calls that writes the robot:
 start, materials, the base link, then per leg quadrant a leg link, a hip
 joint, a foot link and a knee joint, then end.
 */
module QbotGenerator {
  import opened Geometry
  import opened UrdfWrapper
  import opened Markup

  // ---------------------------------------------------------------------------
  // Models

  /** `dog` turns its hips about x; `mantis` about z, with the leg dimensions reversed. */
  datatype Model = Dog | Mantis

  function ModelName(model: Model): string {
    match model
    case Dog => "dog"
    case Mantis => "mantis"
  }

  /** The model selection: `mantis` and `dog` are known, anything else is rejected. */
  function ParseModel(name: string): (r: Option<Model>)
    ensures r.Some? <==> name == "dog" || name == "mantis"
  {
    if name == "mantis" then Some(Mantis)
    else if name == "dog" then Some(Dog)
    else None
  }

  lemma ParseModelName(model: Model)
    ensures ParseModel(ModelName(model)) == Some(model)
  {
  }

  lemma ParseModelInverse(name: string)
    requires ParseModel(name).Some?
    ensures ModelName(ParseModel(name).value) == name
  {
  }

  /** The hip rotation axis, as the text written into the joint. */
  function HipAxis(model: Model): (r: string)
    ensures r == KneeAxis <==> model == Dog
    ensures model == Mantis ==> r == "0 0 1"
  {
    match model
    case Dog => "1 0 0"
    case Mantis => "0 0 1"
  }

  const KneeAxis := "1 0 0"

  // ---------------------------------------------------------------------------
  // Quadrants

  /** A leg quadrant: lateral sign and name, longitudinal sign and name. */
  datatype Pos = Pos(xDes: string, x: int, yDes: string, y: int)

  /** Quadrant of leg index `i`: odd indices are on the right, indices above 1 at the front. */
  function NumToPos(i: int): (p: Pos)
    ensures p.x == 1 || p.x == -1
    ensures p.y == 1 || p.y == -1
    ensures p.xDes == (if p.x == 1 then "right" else "left")
    ensures p.yDes == (if p.y == 1 then "front" else "back")
    ensures p.x == 1 <==> i % 2 == 1
    ensures p.y == 1 <==> i > 1
  {
    var xs := if i % 2 == 1 then (1, "right") else (-1, "left");
    var ys := if i > 1 then (1, "front") else (-1, "back");
    Pos(xs.1, xs.0, ys.1, ys.0)
  }

  /** The leg index a quadrant stands for: the lateral sign is bit 0, the longitudinal sign bit 1. */
  function QuadrantIndex(p: Pos): (i: int)
    ensures 0 <= i < 4
  {
    (if p.x == 1 then 1 else 0) + (if p.y == 1 then 2 else 0)
  }

  lemma QuadrantRoundTrip(i: int)
    requires 0 <= i < 4
    ensures QuadrantIndex(NumToPos(i)) == i
  {
  }

  /** The name suffix of a quadrant, such as `_left_back`. */
  function Tag(i: int): string {
    var p := NumToPos(i);
    "_" + p.xDes + "_" + p.yDes
  }

  /** The four quadrants carry four different tags. */
  lemma TagsDistinct(i: int, j: int)
    requires 0 <= i < 4 && 0 <= j < 4 && i != j
    ensures Tag(i) != Tag(j)
  {
    var a, b := Tag(i), Tag(j);
    var pi, pj := NumToPos(i), NumToPos(j);
    if pi.x != pj.x {
      assert a[1] != b[1];
    } else {
      assert pi.y != pj.y;
      assert pi.xDes == pj.xDes;
      var n := |pi.xDes| + 2;
      assert a[n] == pi.yDes[0];
      assert b[n] == pj.yDes[0];
    }
  }

  /** The index whose quadrant lies across the body's length (lateral bit flipped). */
  function LateralMirror(i: int): int {
    if i % 2 == 1 then i - 1 else i + 1
  }

  /** The index whose quadrant lies across the body's width (longitudinal bit flipped). */
  function LongitudinalMirror(i: int): int {
    if i > 1 then i - 2 else i + 2
  }

  // ---------------------------------------------------------------------------
  // Origins

  /** The hip of leg `i` sits at the base's side and end: half of base plus leg length out, half the base width along. */
  function HipOrigin(b: Vec3, l: Vec3, i: int): (o: Vec3)
    ensures o.z == 0.0
    ensures 2.0 * o.x == (if NumToPos(i).x == 1 then b.x + l.x else -(b.x + l.x))
    ensures 2.0 * o.y == (if NumToPos(i).y == 1 then b.y else -b.y)
  {
    var p := NumToPos(i);
    Vec3((b.x * p.x as real + l.x * p.x as real) / 2.0, b.y * p.y as real / 2.0, 0.0)
  }

  /** The leg box hangs half its height below the hip. */
  function LegOrigin(l: Vec3): (o: Vec3)
    ensures o.x == 0.0 && o.y == 0.0 && 2.0 * o.z + l.z == 0.0
    ensures l.z > 0.0 ==> o.z < 0.0
  {
    Vec3(0.0, 0.0, 0.0 - l.z / 2.0)
  }

  /** The knee is a full leg height below the hip; for `mantis` also half a leg length outwards. */
  function KneeOrigin(model: Model, l: Vec3, i: int): (o: Vec3)
    ensures o.y == 0.0 && o.z == 2.0 * LegOrigin(l).z
    ensures model == Dog ==> o.x == 0.0
    ensures model == Mantis ==> 2.0 * o.x == (if NumToPos(i).x == 1 then l.x else -l.x)
  {
    var p := NumToPos(i);
    var xOffset := match model
      case Dog => 0.0
      case Mantis => l.x * p.x as real / 2.0;
    Vec3(xOffset, 0.0, -l.z)
  }

  /** The foot box hangs half its height below the knee. */
  function FootOrigin(f: Vec3): (o: Vec3)
    ensures o.x == 0.0 && o.y == 0.0 && 2.0 * o.z + f.z == 0.0
    ensures f.z > 0.0 ==> o.z < 0.0
  {
    Vec3(0.0, 0.0, -f.z / 2.0)
  }

  lemma HipLateralSymmetry(b: Vec3, l: Vec3, i: int)
    requires 0 <= i < 4
    ensures 0 <= LateralMirror(i) < 4
    ensures HipOrigin(b, l, LateralMirror(i)).x == -HipOrigin(b, l, i).x
    ensures HipOrigin(b, l, LateralMirror(i)).y == HipOrigin(b, l, i).y
  {
  }

  lemma HipLongitudinalSymmetry(b: Vec3, l: Vec3, i: int)
    requires 0 <= i < 4
    ensures 0 <= LongitudinalMirror(i) < 4
    ensures HipOrigin(b, l, LongitudinalMirror(i)).x == HipOrigin(b, l, i).x
    ensures HipOrigin(b, l, LongitudinalMirror(i)).y == -HipOrigin(b, l, i).y
  {
  }

  /** For a positive body the four hips are at four different places. */
  lemma HipsDistinct(b: Vec3, l: Vec3, i: int, j: int)
    requires b.x + l.x > 0.0 && b.y > 0.0
    requires 0 <= i < 4 && 0 <= j < 4 && i != j
    ensures HipOrigin(b, l, i) != HipOrigin(b, l, j)
  {
    var pi, pj := NumToPos(i), NumToPos(j);
    if pi.x != pj.x {
      assert HipOrigin(b, l, i).x == (b.x + l.x) * pi.x as real / 2.0;
      assert HipOrigin(b, l, j).x == (b.x + l.x) * pj.x as real / 2.0;
    } else {
      assert pi.y != pj.y;
    }
  }

  /** The mantis knee sits outboard on the side of its leg; the dog knee straight below. */
  lemma KneeSide(model: Model, l: Vec3, i: int)
    requires l.x > 0.0
    ensures KneeOrigin(model, l, i).y == 0.0 && KneeOrigin(model, l, i).z == 2.0 * LegOrigin(l).z
    ensures model == Dog ==> KneeOrigin(model, l, i).x == 0.0
    ensures model == Mantis ==>
      (KneeOrigin(model, l, i).x > 0.0 <==> NumToPos(i).x == 1)
  {
  }

  // ---------------------------------------------------------------------------
  // Layout

  /** The reversal applied to the leg dimensions of `mantis`. */
  function Reverse(v: Vec3): Vec3 {
    Vec3(v.z, v.y, v.x)
  }

  /** The derived geometry: dimensions as used, hip axis, and the origin of every part per leg. */
  datatype Layout = Layout(
    model: Model,
    bDim: Vec3,
    lDim: Vec3,
    fDim: Vec3,
    hipAxis: string,
    baseOrigin: Vec3,
    hipOrigins: seq<Vec3>,
    legOrigins: seq<Vec3>,
    kneeOrigins: seq<Vec3>,
    footOrigins: seq<Vec3>)

  /**
   The layout of a model with the given dimensions. The hips are mirror images
   of each other in the plane of the base; every leg and every foot hangs the
   same way below its joint, and each knee sits at the bottom face of its leg.
   */
  function ComputeLayout(model: Model, b: Vec3, l: Vec3, f: Vec3): (g: Layout)
    ensures g.model == model && g.bDim == b && g.fDim == f && g.baseOrigin == Zero
    ensures g.hipAxis == KneeAxis <==> model == Dog
    ensures model == Mantis ==> g.hipAxis == "0 0 1" && Reverse(g.lDim) == l
    ensures model == Dog ==> g.lDim == l
    ensures |g.hipOrigins| == |g.legOrigins| == |g.kneeOrigins| == |g.footOrigins| == 4
    ensures forall i :: 0 <= i < 4 ==>
      && g.hipOrigins[i].z == 0.0
      && 2.0 * g.hipOrigins[i].x == (if NumToPos(i).x == 1 then b.x + g.lDim.x else -(b.x + g.lDim.x))
      && 2.0 * g.hipOrigins[i].y == (if NumToPos(i).y == 1 then b.y else -b.y)
    ensures forall i {:trigger LateralMirror(i)} :: 0 <= i < 4 ==>
      g.hipOrigins[LateralMirror(i)].x == -g.hipOrigins[i].x && g.hipOrigins[LateralMirror(i)].y == g.hipOrigins[i].y
    ensures forall i {:trigger LongitudinalMirror(i)} :: 0 <= i < 4 ==>
      g.hipOrigins[LongitudinalMirror(i)].x == g.hipOrigins[i].x && g.hipOrigins[LongitudinalMirror(i)].y == -g.hipOrigins[i].y
    ensures forall i, j :: 0 <= i < 4 && 0 <= j < 4 ==>
      g.legOrigins[i] == g.legOrigins[j] && g.footOrigins[i] == g.footOrigins[j]
    ensures forall i :: 0 <= i < 4 ==>
      && g.legOrigins[i].x == 0.0 && g.legOrigins[i].y == 0.0 && 2.0 * g.legOrigins[i].z + g.lDim.z == 0.0
      && g.footOrigins[i].x == 0.0 && g.footOrigins[i].y == 0.0 && 2.0 * g.footOrigins[i].z + f.z == 0.0
      && g.kneeOrigins[i].y == 0.0 && g.kneeOrigins[i].z == 2.0 * g.legOrigins[i].z
    ensures model == Dog ==> forall i :: 0 <= i < 4 ==> g.kneeOrigins[i].x == 0.0
    ensures model == Mantis && l.z > 0.0 ==>
      forall i :: 0 <= i < 4 ==> (g.kneeOrigins[i].x > 0.0 <==> NumToPos(i).x == 1)
  {
    var lDim := if model == Mantis then Reverse(l) else l;
    var hips := seq(4, i => HipOrigin(b, lDim, i));
    var legs := seq(4, i => LegOrigin(lDim));
    var knees := seq(4, i => KneeOrigin(model, lDim, i));
    var feet := seq(4, i => FootOrigin(f));
    HipsMirrored(b, lDim, hips);
    PartsHang(model, lDim, f, legs, knees, feet);
    Layout(model, b, lDim, f, HipAxis(model), Zero, hips, legs, knees, feet)
  }

  /** The four hips, each at its quadrant's corner, are mirror images of each other. */
  lemma HipsMirrored(b: Vec3, l: Vec3, hips: seq<Vec3>)
    requires |hips| == 4 && forall i :: 0 <= i < 4 ==> hips[i] == HipOrigin(b, l, i)
    ensures forall i :: 0 <= i < 4 ==>
      && hips[i].z == 0.0
      && 2.0 * hips[i].x == (if NumToPos(i).x == 1 then b.x + l.x else -(b.x + l.x))
      && 2.0 * hips[i].y == (if NumToPos(i).y == 1 then b.y else -b.y)
    ensures forall i {:trigger LateralMirror(i)} :: 0 <= i < 4 ==>
      hips[LateralMirror(i)].x == -hips[i].x && hips[LateralMirror(i)].y == hips[i].y
    ensures forall i {:trigger LongitudinalMirror(i)} :: 0 <= i < 4 ==>
      hips[LongitudinalMirror(i)].x == hips[i].x && hips[LongitudinalMirror(i)].y == -hips[i].y
  {
    forall i | 0 <= i < 4
      ensures && hips[LateralMirror(i)].x == -hips[i].x
              && hips[LateralMirror(i)].y == hips[i].y
              && hips[LongitudinalMirror(i)].x == hips[i].x
              && hips[LongitudinalMirror(i)].y == -hips[i].y
    {
      HipLateralSymmetry(b, l, i);
      HipLongitudinalSymmetry(b, l, i);
    }
  }

  /** Every leg and foot hangs the same way below its joint; each knee is at its leg's bottom face. */
  lemma PartsHang(model: Model, l: Vec3, f: Vec3, legs: seq<Vec3>, knees: seq<Vec3>, feet: seq<Vec3>)
    requires |legs| == |knees| == |feet| == 4
    requires forall i :: 0 <= i < 4 ==>
      legs[i] == LegOrigin(l) && knees[i] == KneeOrigin(model, l, i) && feet[i] == FootOrigin(f)
    ensures forall i, j :: 0 <= i < 4 && 0 <= j < 4 ==> legs[i] == legs[j] && feet[i] == feet[j]
    ensures forall i :: 0 <= i < 4 ==>
      && legs[i].x == 0.0 && legs[i].y == 0.0 && 2.0 * legs[i].z + l.z == 0.0
      && feet[i].x == 0.0 && feet[i].y == 0.0 && 2.0 * feet[i].z + f.z == 0.0
      && knees[i].y == 0.0 && knees[i].z == 2.0 * legs[i].z
    ensures model == Dog ==> forall i :: 0 <= i < 4 ==> knees[i].x == 0.0
    ensures model == Mantis && l.x > 0.0 ==>
      forall i :: 0 <= i < 4 ==> (knees[i].x > 0.0 <==> NumToPos(i).x == 1)
  {
    forall i | 0 <= i < 4
      ensures model == Mantis && l.x > 0.0 ==> (knees[i].x > 0.0 <==> NumToPos(i).x == 1)
    {
      if l.x > 0.0 {
        KneeSide(model, l, i);
      }
    }
  }

  // ---------------------------------------------------------------------------
  // Builder calls

  function LegName(i: int): string { "leg" + Tag(i) }
  function HipName(i: int): string { "hip" + Tag(i) }
  function FootName(i: int): string { "foot" + Tag(i) }
  function KneeName(i: int): string { "knee" + Tag(i) }

  const BaseName := "base_link"

  /** The start call names the robot after the model, so the name parses back to it. */
  function StartCall(model: Model): (r: BranchArgs)
    ensures r.branchType == "start" && ParseModel(r.branchName) == Some(model)
  {
    ParseModelName(model);
    WithDefaults("start").(branchName := ModelName(model))
  }

  const MaterialsCall := WithDefaults("materials").(branchTitle := "MATERIALS")

  /** The base link: a blue box of the base dimensions at the base origin. */
  function BaseCall(g: Layout): (r: BranchArgs)
    ensures r.branchType == "link" && r.branchName == BaseName && r.shape == "box"
    ensures r.size == g.bDim && r.origin == g.baseOrigin && r.color == "blue"
  {
    WithDefaults("link").(branchName := BaseName, origin := g.baseOrigin, size := g.bDim,
                          color := "blue", branchTitle := "BASE LINK")
  }

  /** The end call closes the robot the start call opened: same name, which parses back to the model. */
  function EndCall(model: Model): (r: BranchArgs)
    ensures r.branchType == "end" && ParseModel(r.branchName) == Some(model)
    ensures r.branchName == StartCall(model).branchName
  {
    ParseModelName(model);
    WithDefaults("end").(branchName := ModelName(model))
  }

  /** The leg link of leg `i`, white, hanging below its hip. */
  function LegCall(g: Layout, i: int): (r: BranchArgs)
    requires 0 <= i < |g.legOrigins|
    ensures r.branchType == "link" && r.branchName == LegName(i) && r.shape == "box"
    ensures r.size == g.lDim && r.origin == g.legOrigins[i] && r.color == "white"
  {
    WithDefaults("link").(branchName := LegName(i), origin := g.legOrigins[i], size := g.lDim,
                          color := "white", branchTitle := "LEG LINK " + Tag(i))
  }

  /** The hip joint of leg `i`: from the base link to the leg link, about the model's hip axis. */
  function HipCall(g: Layout, i: int): (r: BranchArgs)
    requires 0 <= i < |g.hipOrigins|
    ensures r.branchType == "joint" && r.branchName == HipName(i) && r.parent == BaseName && r.child == LegName(i)
  {
    WithDefaults("joint").(branchName := HipName(i), origin := g.hipOrigins[i],
                           jointType := "revolute", parent := BaseName, child := LegName(i),
                           axis := g.hipAxis, branchTitle := "HIP JOINT " + Tag(i))
  }

  /** The foot link of leg `i`, white, hanging below its knee. */
  function FootCall(g: Layout, i: int): (r: BranchArgs)
    requires 0 <= i < |g.footOrigins|
    ensures r.branchType == "link" && r.branchName == FootName(i) && r.shape == "box"
    ensures r.size == g.fDim && r.origin == g.footOrigins[i] && r.color == "white"
  {
    WithDefaults("link").(branchName := FootName(i), origin := g.footOrigins[i], size := g.fDim,
                          color := "white", branchTitle := "FOOT LINK " + Tag(i))
  }

  /** The knee joint of leg `i`: from the leg link to the foot link, about x. */
  function KneeCall(g: Layout, i: int): (r: BranchArgs)
    requires 0 <= i < |g.kneeOrigins|
    ensures r.branchType == "joint" && r.branchName == KneeName(i) && r.parent == LegName(i) && r.child == FootName(i)
  {
    WithDefaults("joint").(branchName := KneeName(i), origin := g.kneeOrigins[i],
                           jointType := "revolute", parent := LegName(i), child := FootName(i),
                           axis := KneeAxis, branchTitle := "KNEE JOINT " + Tag(i))
  }

  /** The four calls for leg `i`: leg link, hip joint, foot link, knee joint. */
  function LegGroup(g: Layout, i: int): (r: seq<BranchArgs>)
    requires 0 <= i < 4 && |g.hipOrigins| == |g.legOrigins| == |g.kneeOrigins| == |g.footOrigins| == 4
    ensures |r| == 4
  {
    [LegCall(g, i), HipCall(g, i), FootCall(g, i), KneeCall(g, i)]
  }

  /** The groups of legs 0 .. n-1, in leg order. */
  function LegGroups(g: Layout, n: nat): (r: seq<BranchArgs>)
    requires n <= 4 && |g.hipOrigins| == |g.legOrigins| == |g.kneeOrigins| == |g.footOrigins| == 4
    ensures |r| == 4 * n
  {
    if n == 0 then [] else LegGroups(g, n - 1) + LegGroup(g, n - 1)
  }

  /** Among the groups of the first n legs, leg i's leg, hip, foot and knee calls are at 4i .. 4i+3. */
  lemma {:induction false} LegGroupsAt(g: Layout, n: nat, i: nat)
    requires i < n <= 4 && |g.hipOrigins| == |g.legOrigins| == |g.kneeOrigins| == |g.footOrigins| == 4
    ensures LegGroups(g, n)[4 * i] == LegCall(g, i) && LegGroups(g, n)[4 * i + 1] == HipCall(g, i)
    ensures LegGroups(g, n)[4 * i + 2] == FootCall(g, i) && LegGroups(g, n)[4 * i + 3] == KneeCall(g, i)
  {
    if i < n - 1 {
      LegGroupsAt(g, n - 1, i);
    }
    FourAt(LegGroups(g, n - 1), LegGroup(g, n - 1), LegGroups(g, n), n, i,
           LegCall(g, i), HipCall(g, i), FootCall(g, i), KneeCall(g, i));
  }

  /** Entries 4i .. 4i+3 of `front + last`, where `last` is the n-th group of four. */
  lemma FourAt<T>(front: seq<T>, last: seq<T>, all: seq<T>, n: nat, i: nat, a: T, b: T, c: T, d: T)
    requires all == front + last && |front| == 4 * (n - 1) && |last| == 4 && i < n
    requires i < n - 1 ==> front[4 * i] == a && front[4 * i + 1] == b && front[4 * i + 2] == c && front[4 * i + 3] == d
    requires i == n - 1 ==> last == [a, b, c, d]
    ensures all[4 * i] == a && all[4 * i + 1] == b && all[4 * i + 2] == c && all[4 * i + 3] == d
  {
  }

  /** The complete call sequence of a generation. */
  function Calls(g: Layout): (r: seq<BranchArgs>)
    requires |g.hipOrigins| == |g.legOrigins| == |g.kneeOrigins| == |g.footOrigins| == 4
    ensures |r| == 20
    ensures r[0].branchType == "start" && r[|r| - 1].branchType == "end"
    ensures r[1].branchType == "materials" && r[2].branchName == BaseName
  {
    [StartCall(g.model), MaterialsCall, BaseCall(g)] + LegGroups(g, 4) + [EndCall(g.model)]
  }

  // ---------------------------------------------------------------------------
  // Link and joint maps

  /** Decimal text of a natural number, as `str` writes it. */
  function DecimalString(n: nat): (s: string)
    ensures |s| > 0
    decreases n
  {
    var digit := ['0' + (n % 10) as char];
    if n < 10 then digit else DecimalString(n / 10) + digit
  }

  lemma DecimalDigits(k: nat)
    requires k < 10
    ensures DecimalString(k) == ['0' + k as char]
  {
  }

  /** The keys "0" .. "m-1". */
  function KeysUpTo(m: nat): set<string> {
    if m == 0 then {} else KeysUpTo(m - 1) + {DecimalString(m - 1)}
  }

  lemma {:induction false} KeysUpToHolds(k: nat, m: nat)
    requires k < 10 && m <= 10
    ensures DecimalString(k) in KeysUpTo(m) <==> k < m
  {
    if m > 0 {
      KeysUpToHolds(k, m - 1);
      DecimalDigits(k);
      DecimalDigits(m - 1);
    }
  }

  /** The two keys a leg adds are new, and different from each other. */
  lemma FreshKeys(m: nat)
    requires m < 4
    ensures DecimalString(2 * m) != DecimalString(2 * m + 1)
    ensures DecimalString(2 * m) !in KeysUpTo(2 * m)
    ensures DecimalString(2 * m + 1) !in KeysUpTo(2 * m)
    ensures KeysUpTo(2 * m + 2) == KeysUpTo(2 * m) + {DecimalString(2 * m), DecimalString(2 * m + 1)}
  {
    KeysUpToHolds(2 * m, 2 * m);
    KeysUpToHolds(2 * m + 1, 2 * m);
    DecimalDigits(2 * m);
    DecimalDigits(2 * m + 1);
  }

  /** Two updates at two new keys add exactly those keys. */
  lemma AddTwoKeys(m: map<string, string>, a: string, b: string, va: string, vb: string)
    requires a !in m && b !in m && a != b
    ensures m[a := va][b := vb].Keys == m.Keys + {a, b}
    ensures |m[a := va][b := vb]| == |m| + 2
  {
  }

  /** The map with leg `i`'s two entries added under keys "2i" and "2i+1". */
  function AddLeg(m: map<string, string>, i: nat, first: string, second: string): (r: map<string, string>)
    requires i < 4 && m.Keys == KeysUpTo(2 * i) && |m| == 2 * i
    ensures r.Keys == KeysUpTo(2 * i + 2) && |r| == 2 * i + 2
  {
    FreshKeys(i);
    AddTwoKeys(m, DecimalString(2 * i), DecimalString(2 * i + 1), first, second);
    m[DecimalString(2 * i) := first][DecimalString(2 * i + 1) := second]
  }

  /** `link_map` after `n` legs: key "2i" holds leg i's link, "2i+1" its foot link. */
  function LinkMap(n: nat): (r: map<string, string>)
    requires n <= 4
    ensures r.Keys == KeysUpTo(2 * n)
    ensures |r| == 2 * n
  {
    if n == 0 then map[]
    else
      var i := n - 1;
      var added := AddLeg(LinkMap(i), i, LegName(i), FootName(i));
      assert 2 * i + 2 == 2 * n;
      added
  }

  /** `joint_map` after `n` legs: key "2i" holds leg i's hip joint, "2i+1" its knee joint. */
  function JointMap(n: nat): (r: map<string, string>)
    requires n <= 4
    ensures r.Keys == KeysUpTo(2 * n)
    ensures |r| == 2 * n
  {
    if n == 0 then map[]
    else
      var i := n - 1;
      var added := AddLeg(JointMap(i), i, HipName(i), KneeName(i));
      assert 2 * i + 2 == 2 * n;
      added
  }

  // ---------------------------------------------------------------------------
  // Generation

  /** A dimension argument that is not a triple (which argument, its length), or an unknown model. */
  datatype GenError = NotATriple(argument: nat, length: nat) | InvalidModel(model: string)

  datatype Generation = Generation(
    fileName: string,
    layout: Layout,
    calls: seq<BranchArgs>,
    linkMap: map<string, string>,
    jointMap: map<string, string>)

  datatype Result<T> = Ok(value: T) | Err(error: GenError)

  function AsVec3(d: seq<real>): Vec3
    requires |d| == 3
  {
    Vec3(d[0], d[1], d[2])
  }

  /** The first argument of `dims` that is not a triple, starting at `from`. */
  function FirstNonTriple(dims: seq<seq<real>>, from: nat): (r: Option<nat>)
    requires from <= |dims|
    ensures r.Some? ==>
      && from <= r.value < |dims| && |dims[r.value]| != 3
      && forall k :: from <= k < r.value ==> |dims[k]| == 3
    ensures r.None? ==> forall k :: from <= k < |dims| ==> |dims[k]| == 3
    decreases |dims| - from
  {
    if from == |dims| then None
    else if |dims[from]| != 3 then Some(from)
    else FirstNonTriple(dims, from + 1)
  }

  /** The generator: input checks, then layout, calls and maps. */
  function Generate(bDim: seq<real>, lDim: seq<real>, fDim: seq<real>, model: string)
    : (r: Result<Generation>)
    ensures r.Ok? <==> |bDim| == 3 && |lDim| == 3 && |fDim| == 3 && (model == "dog" || model == "mantis")
    ensures r.Err? && r.error.NotATriple? ==>
      r.error == (if |bDim| != 3 then NotATriple(0, |bDim|)
                  else if |lDim| != 3 then NotATriple(1, |lDim|)
                  else NotATriple(2, |fDim|))
    ensures r.Err? ==> (r.error.InvalidModel? <==> |bDim| == 3 && |lDim| == 3 && |fDim| == 3)
    ensures r.Err? && r.error.InvalidModel? ==>
      |bDim| == 3 && |lDim| == 3 && |fDim| == 3 && r.error.model == model
    ensures r.Ok? ==> r.value.fileName == model + ".urdf"
    ensures r.Ok? ==>
      var g := r.value.layout;
      && ModelName(g.model) == model
      && g.bDim == Vec3(bDim[0], bDim[1], bDim[2]) && g.fDim == Vec3(fDim[0], fDim[1], fDim[2])
      && g.lDim == (if model == "mantis" then Vec3(lDim[2], lDim[1], lDim[0]) else Vec3(lDim[0], lDim[1], lDim[2]))
      && g == ComputeLayout(ParseModel(model).value, AsVec3(bDim), AsVec3(lDim), AsVec3(fDim))
      && |g.hipOrigins| == |g.legOrigins| == |g.kneeOrigins| == |g.footOrigins| == 4
      && r.value.calls == Calls(g)
      && r.value.linkMap == LinkMap(4) && r.value.jointMap == JointMap(4)
  {
    var dims := [bDim, lDim, fDim];
    match FirstNonTriple(dims, 0)
    case Some(k) =>
      assert dims[0] == bDim && dims[1] == lDim && dims[2] == fDim;
      Err(NotATriple(k, |dims[k]|))
    case None =>
      assert |dims[0]| == 3 && |dims[1]| == 3 && |dims[2]| == 3;
      match ParseModel(model)
      case None => Err(InvalidModel(model))
      case Some(m) =>
        var g := ComputeLayout(m, AsVec3(bDim), AsVec3(lDim), AsVec3(fDim));
        Ok(Generation(model + ".urdf", g, Calls(g), LinkMap(4), JointMap(4)))
  }
}

=== FILE: qbot_properties.dfy ===
/**
 What the generator's call sequence guarantees: its order, nine links and
 eight joints with distinct names, joints that only name links already
 written, the link and joint maps, and the document the calls leave behind.
 */
module QbotProperties {
  import opened Geometry
  import opened UrdfWrapper
  import opened QbotGenerator

  type Layout4 = g: Layout | |g.hipOrigins| == |g.legOrigins| == |g.kneeOrigins| == |g.footOrigins| == 4
    witness Layout(Dog, Zero, Zero, Zero, "", Zero, [Zero, Zero, Zero, Zero], [Zero, Zero, Zero, Zero],
                   [Zero, Zero, Zero, Zero], [Zero, Zero, Zero, Zero])

  // ---------------------------------------------------------------------------
  // Order of the calls

  /** start, materials, the base link, four groups of leg, hip, foot, knee, end. */
  lemma CallOrder(g: Layout4)
    ensures |Calls(g)| == 20
    ensures Calls(g)[0] == StartCall(g.model) && Calls(g)[1] == MaterialsCall
    ensures Calls(g)[2] == BaseCall(g) && Calls(g)[19] == EndCall(g.model)
    ensures forall i :: 0 <= i < 4 ==>
      && Calls(g)[3 + 4 * i] == LegCall(g, i) && Calls(g)[4 + 4 * i] == HipCall(g, i)
      && Calls(g)[5 + 4 * i] == FootCall(g, i) && Calls(g)[6 + 4 * i] == KneeCall(g, i)
  {
    HeadAt(g);
    forall i | 0 <= i < 4
      ensures && Calls(g)[3 + 4 * i] == LegCall(g, i) && Calls(g)[4 + 4 * i] == HipCall(g, i)
              && Calls(g)[5 + 4 * i] == FootCall(g, i) && Calls(g)[6 + 4 * i] == KneeCall(g, i)
    {
      GroupAt(g, i);
    }
  }

  /** The first three calls and the last. */
  lemma HeadAt(g: Layout4)
    ensures |Calls(g)| == 20
    ensures Calls(g)[0] == StartCall(g.model) && Calls(g)[1] == MaterialsCall
    ensures Calls(g)[2] == BaseCall(g) && Calls(g)[19] == EndCall(g.model)
  {
  }

  /** The four calls of leg i sit at positions 3 + 4i .. 6 + 4i. */
  lemma GroupAt(g: Layout4, i: int)
    requires 0 <= i < 4
    ensures |Calls(g)| == 20
    ensures Calls(g)[3 + 4 * i] == LegCall(g, i) && Calls(g)[4 + 4 * i] == HipCall(g, i)
    ensures Calls(g)[5 + 4 * i] == FootCall(g, i) && Calls(g)[6 + 4 * i] == KneeCall(g, i)
  {
    var groups := LegGroups(g, 4);
    LegGroupsAt(g, 4, i);
    var head := [StartCall(g.model), MaterialsCall, BaseCall(g)];
    assert Calls(g) == head + groups + [EndCall(g.model)];
    assert Calls(g)[3 + 4 * i] == groups[4 * i];
    assert Calls(g)[4 + 4 * i] == groups[4 * i + 1];
    assert Calls(g)[5 + 4 * i] == groups[4 * i + 2];
    assert Calls(g)[6 + 4 * i] == groups[4 * i + 3];
  }

  /** The branch types of a call sequence, in order. */
  function TypesOf(calls: seq<BranchArgs>): (r: seq<string>)
    ensures |r| == |calls|
    ensures forall k :: 0 <= k < |calls| ==> r[k] == calls[k].branchType
    decreases |calls|
  {
    if calls == [] then []
    else TypesOf(calls[..|calls| - 1]) + [calls[|calls| - 1].branchType]
  }

  lemma {:induction false} TypesOfAppend(a: seq<BranchArgs>, b: seq<BranchArgs>)
    ensures TypesOf(a + b) == TypesOf(a) + TypesOf(b)
    decreases |b|
  {
    if b == [] {
      assert a + b == a;
    } else {
      var b' := b[..|b| - 1];
      assert (a + b)[..|a + b| - 1] == a + b';
      TypesOfAppend(a, b');
    }
  }

  lemma TypesOfFour(a: BranchArgs, b: BranchArgs, c: BranchArgs, d: BranchArgs)
    ensures TypesOf([a]) == [a.branchType]
    ensures TypesOf([a, b]) == [a.branchType, b.branchType]
    ensures TypesOf([a, b, c]) == [a.branchType, b.branchType, c.branchType]
    ensures TypesOf([a, b, c, d]) == [a.branchType, b.branchType, c.branchType, d.branchType]
  {
    assert [a][..0] == [];
    assert [a, b][..1] == [a];
    assert [a, b, c][..2] == [a, b];
    assert [a, b, c, d][..3] == [a, b, c];
  }

  const GroupTypes := ["link", "joint", "link", "joint"]

  lemma {:induction false} GroupsTypes(g: Layout4, n: nat)
    requires n <= 4
    ensures TypesOf(LegGroups(g, n)) == Repeat(GroupTypes, n)
  {
    if n > 0 {
      var r := LegGroup(g, n - 1);
      GroupsTypes(g, n - 1);
      TypesOfAppend(LegGroups(g, n - 1), r);
      TypesOfFour(r[0], r[1], r[2], r[3]);
      assert r == [r[0], r[1], r[2], r[3]];
    }
  }

  function Repeat(s: seq<string>, n: nat): (r: seq<string>)
    ensures |r| == n * |s|
  {
    if n == 0 then [] else Repeat(s, n - 1) + s
  }

  /** The types of the calls are those of the head, the leg groups and the end call. */
  lemma TypesOfCalls(g: Layout4)
    ensures TypesOf(Calls(g))
         == TypesOf(Head(g)) + TypesOf(LegGroups(g, 4)) + TypesOf([EndCall(g.model)])
  {
    assert Calls(g) == Head(g) + LegGroups(g, 4) + [EndCall(g.model)];
    TypesOfAppend(Head(g) + LegGroups(g, 4), [EndCall(g.model)]);
    TypesOfAppend(Head(g), LegGroups(g, 4));
  }

  lemma HeadAndEndTypes(g: Layout4)
    ensures TypesOf(Head(g)) == ["start", "materials", "link"]
    ensures TypesOf([EndCall(g.model)]) == ["end"]
  {
    var head := Head(g);
    TypesOfFour(head[0], head[1], head[2], head[0]);
    TypesOfFour(EndCall(g.model), head[0], head[0], head[0]);
  }

  /** The branch types in order: start, materials, the base link, four times link-joint-link-joint, end. */
  lemma CallTypes(g: Layout4)
    ensures TypesOf(Calls(g)) == ["start", "materials", "link"] + Repeat(GroupTypes, 4) + ["end"]
  {
    TypesOfCalls(g);
    HeadAndEndTypes(g);
    GroupsTypes(g, 4);
  }

  // ---------------------------------------------------------------------------
  // Names

  /** The names of the calls of one branch type, in call order. */
  function NamesOf(calls: seq<BranchArgs>, branchType: string): (r: seq<string>)
    ensures |r| <= |calls|
    decreases |calls|
  {
    if calls == [] then []
    else
      var last := calls[|calls| - 1];
      NamesOf(calls[..|calls| - 1], branchType)
      + (if last.branchType == branchType then [last.branchName] else [])
  }

  lemma {:induction false} NamesOfAppend(a: seq<BranchArgs>, b: seq<BranchArgs>, branchType: string)
    ensures NamesOf(a + b, branchType) == NamesOf(a, branchType) + NamesOf(b, branchType)
    decreases |b|
  {
    if b == [] {
      assert a + b == a;
    } else {
      var b' := b[..|b| - 1];
      assert (a + b)[..|a + b| - 1] == a + b';
      NamesOfAppend(a, b', branchType);
    }
  }

  /** A call of the given type before position `k` has its name among the names before `k`. */
  lemma {:induction false} NamedBefore(calls: seq<BranchArgs>, j: int, k: int, branchType: string)
    requires 0 <= j < k <= |calls| && calls[j].branchType == branchType
    ensures calls[j].branchName in NamesOf(calls[..k], branchType)
    decreases k
  {
    var prefix := calls[..k];
    assert prefix[..|prefix| - 1] == calls[..k - 1];
    if j < k - 1 {
      NamedBefore(calls, j, k - 1, branchType);
    }
  }

  function LinkNames(g: Layout4): seq<string> {
    NamesOf(Calls(g), "link")
  }

  function JointNames(g: Layout4): seq<string> {
    NamesOf(Calls(g), "joint")
  }

  lemma GroupNames(g: Layout4, i: int)
    requires 0 <= i < 4
    ensures NamesOf(LegGroup(g, i), "link") == [LegName(i), FootName(i)]
    ensures NamesOf(LegGroup(g, i), "joint") == [HipName(i), KneeName(i)]
  {
    GroupTypesAndNames(g, i);
    NamesOfFour(LegCall(g, i), HipCall(g, i), FootCall(g, i), KneeCall(g, i), "link");
    NamesOfFour(LegCall(g, i), HipCall(g, i), FootCall(g, i), KneeCall(g, i), "joint");
  }

  /** The four calls of a leg group, with their types and names. */
  lemma GroupTypesAndNames(g: Layout4, i: int)
    requires 0 <= i < 4
    ensures LegGroup(g, i) == [LegCall(g, i), HipCall(g, i), FootCall(g, i), KneeCall(g, i)]
    ensures LegCall(g, i).branchType == "link" && LegCall(g, i).branchName == LegName(i)
    ensures HipCall(g, i).branchType == "joint" && HipCall(g, i).branchName == HipName(i)
    ensures FootCall(g, i).branchType == "link" && FootCall(g, i).branchName == FootName(i)
    ensures KneeCall(g, i).branchType == "joint" && KneeCall(g, i).branchName == KneeName(i)
  {
  }

  lemma NamesOfFour(a: BranchArgs, b: BranchArgs, c: BranchArgs, d: BranchArgs, t: string)
    ensures NamesOf([a], t) == (if a.branchType == t then [a.branchName] else [])
    ensures NamesOf([a, b], t) == NamesOf([a], t) + (if b.branchType == t then [b.branchName] else [])
    ensures NamesOf([a, b, c], t) == NamesOf([a, b], t) + (if c.branchType == t then [c.branchName] else [])
    ensures NamesOf([a, b, c, d], t) == NamesOf([a, b, c], t) + (if d.branchType == t then [d.branchName] else [])
  {
    assert [a][..0] == [];
    assert [a, b][..1] == [a];
    assert [a, b, c][..2] == [a, b];
    assert [a, b, c, d][..3] == [a, b, c];
  }

  /** Link names of legs 0 .. n-1: each leg's link, then its foot link. */
  function LegLinkNames(n: nat): (r: seq<string>)
    ensures |r| == 2 * n
    ensures forall i :: 0 <= i < n ==> r[2 * i] == LegName(i) && r[2 * i + 1] == FootName(i)
  {
    if n == 0 then [] else LegLinkNames(n - 1) + [LegName(n - 1), FootName(n - 1)]
  }

  /** Joint names of legs 0 .. n-1: each leg's hip joint, then its knee joint. */
  function LegJointNames(n: nat): (r: seq<string>)
    ensures |r| == 2 * n
    ensures forall i :: 0 <= i < n ==> r[2 * i] == HipName(i) && r[2 * i + 1] == KneeName(i)
  {
    if n == 0 then [] else LegJointNames(n - 1) + [HipName(n - 1), KneeName(n - 1)]
  }

  lemma {:induction false} GroupsNames(g: Layout4, n: nat)
    requires n <= 4
    ensures NamesOf(LegGroups(g, n), "link") == LegLinkNames(n)
    ensures NamesOf(LegGroups(g, n), "joint") == LegJointNames(n)
  {
    if n > 0 {
      GroupsNames(g, n - 1);
      NamesOfAppend(LegGroups(g, n - 1), LegGroup(g, n - 1), "link");
      NamesOfAppend(LegGroups(g, n - 1), LegGroup(g, n - 1), "joint");
      GroupNames(g, n - 1);
    }
  }

  function Head(g: Layout4): seq<BranchArgs> {
    [StartCall(g.model), MaterialsCall, BaseCall(g)]
  }

  /** The names of a type in the calls are those of the head, the leg groups and the end call. */
  lemma NamesOfCalls(g: Layout4, t: string)
    ensures NamesOf(Calls(g), t)
         == NamesOf(Head(g), t) + NamesOf(LegGroups(g, 4), t) + NamesOf([EndCall(g.model)], t)
  {
    assert Calls(g) == Head(g) + LegGroups(g, 4) + [EndCall(g.model)];
    NamesOfAppend(Head(g) + LegGroups(g, 4), [EndCall(g.model)], t);
    NamesOfAppend(Head(g), LegGroups(g, 4), t);
  }

  /** The head writes one link, the base, and no joint. */
  lemma HeadNames(g: Layout4, t: string)
    requires t == "link" || t == "joint"
    ensures NamesOf(Head(g), t) == if t == "link" then [BaseName] else []
  {
    var head := Head(g);
    NamesOfFour(head[0], head[1], head[2], head[0], t);
  }

  /** The end call writes neither links nor joints. */
  lemma EndNames(g: Layout4, t: string)
    requires t == "link" || t == "joint"
    ensures NamesOf([EndCall(g.model)], t) == []
  {
    NamesOfFour(EndCall(g.model), EndCall(g.model), EndCall(g.model), EndCall(g.model), t);
  }

  /** Nine links: the base, then leg and foot of each quadrant in leg order. */
  lemma LinkNamesAre(g: Layout4)
    ensures LinkNames(g) == [BaseName] + LegLinkNames(4)
  {
    NamesOfCalls(g, "link");
    HeadNames(g, "link");
    EndNames(g, "link");
    GroupsNames(g, 4);
  }

  /** Eight joints: hip and knee of each quadrant in leg order. */
  lemma JointNamesAre(g: Layout4)
    ensures JointNames(g) == LegJointNames(4)
  {
    NamesOfCalls(g, "joint");
    HeadNames(g, "joint");
    EndNames(g, "joint");
    GroupsNames(g, 4);
    Between(NamesOf(Head(g), "joint"), LegJointNames(4), NamesOf([EndCall(g.model)], "joint"));
  }

  lemma Between(a: seq<string>, b: seq<string>, c: seq<string>)
    requires a == [] && c == []
    ensures a + b + c == b
  {
  }

  predicate Distinct(names: seq<string>) {
    forall j, k :: 0 <= j < k < |names| ==> names[j] != names[k]
  }

  /** Two names with different first letters, or one prefix and different tags, differ. */
  lemma PrefixedDiffer(p: string, q: string, s: string, t: string)
    requires (p == q && s != t) || (|p| > 0 && |q| > 0 && p[0] != q[0])
    ensures p + s != q + t
  {
    if p == q && s != t {
      assert (p + s)[|p|..] == s;
      assert (q + t)[|q|..] == t;
    } else {
      assert (p + s)[0] == p[0];
      assert (q + t)[0] == q[0];
    }
  }

  /** The name at position `k` of a list of per-leg names, two per leg. */
  lemma PairedName(names: seq<string>, k: int, first: string, second: string)
    requires 0 <= k < 8 && |names| == 8
    requires forall i :: 0 <= i < 4 ==>
      names[2 * i] == first + Tag(i) && names[2 * i + 1] == second + Tag(i)
    ensures names[k] == (if k % 2 == 0 then first else second) + Tag(k / 2)
  {
    var i := k / 2;
    if k % 2 == 0 {
      assert k == 2 * i;
    } else {
      assert k == 2 * i + 1;
    }
  }

  /** Two names per leg with prefixes that differ in their first letter are all different. */
  lemma PairedNamesDistinct(names: seq<string>, first: string, second: string)
    requires |names| == 8 && |first| > 0 && |second| > 0 && first[0] != second[0]
    requires forall i :: 0 <= i < 4 ==>
      names[2 * i] == first + Tag(i) && names[2 * i + 1] == second + Tag(i)
    ensures Distinct(names)
  {
    forall j, k | 0 <= j < k < 8
      ensures names[j] != names[k]
    {
      PairedName(names, j, first, second);
      PairedName(names, k, first, second);
      var pj := if j % 2 == 0 then first else second;
      var pk := if k % 2 == 0 then first else second;
      if pj == pk {
        TagsDistinct(j / 2, k / 2);
      }
      PrefixedDiffer(pj, pk, Tag(j / 2), Tag(k / 2));
    }
  }

  lemma ConsDistinct(x: string, names: seq<string>)
    requires Distinct(names) && forall k :: 0 <= k < |names| ==> names[k] != x
    ensures Distinct([x] + names)
  {
    var all := [x] + names;
    forall j, k | 0 <= j < k < |all|
      ensures all[j] != all[k]
    {
      assert all[k] == names[k - 1];
      if j > 0 {
        assert all[j] == names[j - 1];
      }
    }
  }

  /** Neither the link nor the foot link of a leg is called `base_link`. */
  lemma BaseNotALegName(n: nat, i: nat)
    requires i < n
    ensures LegLinkNames(n)[2 * i] != BaseName && LegLinkNames(n)[2 * i + 1] != BaseName
  {
    NotBase("leg", Tag(i));
    NotBase("foot", Tag(i));
  }

  /** A name that starts with `leg` or `foot` is not `base_link`. */
  lemma NotBase(p: string, t: string)
    requires p == "leg" || p == "foot"
    ensures p + t != BaseName
  {
    assert p[0] != BaseName[0];
    PrefixedDiffer(p, BaseName, t, "");
    assert BaseName + "" == BaseName;
  }

  lemma LinkNamesDistinct(g: Layout4)
    ensures |LinkNames(g)| == 9 && Distinct(LinkNames(g))
  {
    LinkNamesAre(g);
    LegLinkNamesDistinct();
  }

  /** The base link followed by the leg and foot links: nine different names. */
  lemma LegLinkNamesDistinct()
    ensures Distinct([BaseName] + LegLinkNames(4))
  {
    var names := LegLinkNames(4);
    forall i | 0 <= i < 4
      ensures names[2 * i] == "leg" + Tag(i) && names[2 * i + 1] == "foot" + Tag(i)
    {
      assert names[2 * i] == LegName(i);
    }
    assert "leg"[0] == 'l' && "foot"[0] == 'f';
    PairedNamesDistinct(names, "leg", "foot");
    forall k | 0 <= k < 8
      ensures names[k] != BaseName
    {
      var i := k / 2;
      if k % 2 == 0 {
        assert k == 2 * i;
      } else {
        assert k == 2 * i + 1;
      }
      BaseNotALegName(4, i);
    }
    ConsDistinct(BaseName, names);
  }

  lemma JointNamesDistinct(g: Layout4)
    ensures |JointNames(g)| == 8 && Distinct(JointNames(g))
  {
    JointNamesAre(g);
    LegJointNamesDistinct();
  }

  lemma LegJointNamesDistinct()
    ensures Distinct(LegJointNames(4))
  {
    var names := LegJointNames(4);
    forall i | 0 <= i < 4
      ensures names[2 * i] == "hip" + Tag(i) && names[2 * i + 1] == "knee" + Tag(i)
    {
      assert names[2 * i] == HipName(i);
    }
    assert "hip"[0] == 'h' && "knee"[0] == 'k';
    PairedNamesDistinct(names, "hip", "knee");
  }

  // ---------------------------------------------------------------------------
  // References

  /** Every joint's parent and child are links written by an earlier call. */
  predicate ReferencesResolved(calls: seq<BranchArgs>) {
    forall k :: 0 <= k < |calls| && calls[k].branchType == "joint" ==>
      && calls[k].parent in NamesOf(calls[..k], "link")
      && calls[k].child in NamesOf(calls[..k], "link")
  }

  /** Call `k` of a generation, for `k` within a leg group. */
  lemma GroupCallAt(g: Layout4, k: int)
    requires 3 <= k < 19
    ensures var i := (k - 3) / 4;
      && 0 <= i < 4
      && (k == 3 + 4 * i ==> Calls(g)[k] == LegCall(g, i))
      && (k == 4 + 4 * i ==> Calls(g)[k] == HipCall(g, i))
      && (k == 5 + 4 * i ==> Calls(g)[k] == FootCall(g, i))
      && (k == 6 + 4 * i ==> Calls(g)[k] == KneeCall(g, i))
      && (k == 3 + 4 * i || k == 4 + 4 * i || k == 5 + 4 * i || k == 6 + 4 * i)
  {
    GroupAt(g, (k - 3) / 4);
  }

  /** The joints of a generation are exactly the hip and knee calls. */
  lemma JointPositions(g: Layout4, k: int)
    requires 0 <= k < |Calls(g)| && Calls(g)[k].branchType == "joint"
    ensures 3 <= k < 19
    ensures var i := (k - 3) / 4;
      (k == 4 + 4 * i && Calls(g)[k] == HipCall(g, i))
      || (k == 6 + 4 * i && Calls(g)[k] == KneeCall(g, i))
  {
    CallTypes(g);
    assert TypesOf(Calls(g))[k] == "joint";
    assert 3 <= k < 19;
    GroupCallAt(g, k);
  }

  /** The joint at call `k` names two links written before it. */
  lemma JointResolved(g: Layout4, k: int)
    requires 0 <= k < |Calls(g)| && Calls(g)[k].branchType == "joint"
    ensures Calls(g)[k].parent in NamesOf(Calls(g)[..k], "link")
    ensures Calls(g)[k].child in NamesOf(Calls(g)[..k], "link")
  {
    JointPositions(g, k);
    var i := (k - 3) / 4;
    if k == 4 + 4 * i {
      HipResolved(g, i);
    } else {
      KneeResolved(g, i);
    }
  }

  /** Hip i joins the base link and leg i's link, both written before it. */
  lemma HipResolved(g: Layout4, i: int)
    requires 0 <= i < 4
    ensures Calls(g)[4 + 4 * i].parent in NamesOf(Calls(g)[..4 + 4 * i], "link")
    ensures Calls(g)[4 + 4 * i].child in NamesOf(Calls(g)[..4 + 4 * i], "link")
  {
    HeadAt(g);
    GroupAt(g, i);
    NamedBefore(Calls(g), 2, 4 + 4 * i, "link");
    NamedBefore(Calls(g), 3 + 4 * i, 4 + 4 * i, "link");
  }

  /** Knee i joins leg i's link and foot i's link, both written before it. */
  lemma KneeResolved(g: Layout4, i: int)
    requires 0 <= i < 4
    ensures Calls(g)[6 + 4 * i].parent in NamesOf(Calls(g)[..6 + 4 * i], "link")
    ensures Calls(g)[6 + 4 * i].child in NamesOf(Calls(g)[..6 + 4 * i], "link")
  {
    GroupAt(g, i);
    NamedBefore(Calls(g), 3 + 4 * i, 6 + 4 * i, "link");
    NamedBefore(Calls(g), 5 + 4 * i, 6 + 4 * i, "link");
  }

  lemma NoDanglingReferences(g: Layout4)
    ensures ReferencesResolved(Calls(g))
  {
    forall k | 0 <= k < |Calls(g)| && Calls(g)[k].branchType == "joint"
      ensures Calls(g)[k].parent in NamesOf(Calls(g)[..k], "link")
      ensures Calls(g)[k].child in NamesOf(Calls(g)[..k], "link")
    {
      JointResolved(g, k);
    }
  }

  /**
   Every link is coloured with a material of the palette, and the materials
   call that declares the palette comes before it.
   */
  lemma ColoursDeclared(g: Layout4, k: int)
    requires 0 <= k < |Calls(g)| && Calls(g)[k].branchType == "link"
    ensures 1 < k && Calls(g)[1].branchType == "materials"
    ensures Calls(g)[k].color == Palette[0].0 || Calls(g)[k].color == Palette[1].0
  {
    HeadAt(g);
    if 3 <= k < 19 {
      GroupCallAt(g, k);
    }
  }

  /**
   The materials call of a generation appends its `MATERIALS` title comment
   and the declarations of both palette colours, and raises nothing.
   */
  lemma MaterialsCallWrites(num: Numerals, g: Layout4, file: seq<string>)
    ensures Calls(g)[1] == MaterialsCall
    ensures Branch(num, Calls(g)[1], file)
         == Written(file + [TitleComment("MATERIALS")] + MaterialLines(Palette))
  {
    HeadAt(g);
  }

  /** Hips join the base to a leg about the model's hip axis; knees join leg to foot about x. */
  lemma JointWiring(g: Layout4, i: int)
    requires 0 <= i < 4
    ensures var hip := Calls(g)[4 + 4 * i];
      && hip.branchType == "joint" && hip.jointType == "revolute"
      && hip.parent == BaseName && hip.child == LegName(i)
      && hip.axis == g.hipAxis && hip.origin == g.hipOrigins[i]
    ensures var knee := Calls(g)[6 + 4 * i];
      && knee.branchType == "joint" && knee.jointType == "revolute"
      && knee.parent == LegName(i) && knee.child == FootName(i)
      && knee.axis == "1 0 0" && knee.origin == g.kneeOrigins[i]
  {
    GroupAt(g, i);
  }

  /**
   The base link is a blue box of the base dimensions at the base origin; the
   leg and foot links of leg `i` are white boxes of the leg and foot
   dimensions, at that leg's leg and foot origins.
   */
  lemma LinkWiring(g: Layout4, i: int)
    requires 0 <= i < 4
    ensures var base := Calls(g)[2];
      && base.branchType == "link" && base.shape == "box" && base.branchName == BaseName
      && base.size == g.bDim && base.origin == g.baseOrigin && base.color == "blue"
    ensures var leg := Calls(g)[3 + 4 * i];
      && leg.branchType == "link" && leg.shape == "box" && leg.branchName == LegName(i)
      && leg.size == g.lDim && leg.origin == g.legOrigins[i] && leg.color == "white"
    ensures var foot := Calls(g)[5 + 4 * i];
      && foot.branchType == "link" && foot.shape == "box" && foot.branchName == FootName(i)
      && foot.size == g.fDim && foot.origin == g.footOrigins[i] && foot.color == "white"
  {
    HeadAt(g);
    GroupAt(g, i);
  }

  /** Every link of a generation is a box, so none of its calls can raise. */
  lemma AllBoxes(g: Layout4)
    ensures forall k :: 0 <= k < |Calls(g)| ==>
      !(Calls(g)[k].branchType == "link" && Calls(g)[k].shape != "box")
  {
    HeadAt(g);
    forall k | 0 <= k < |Calls(g)|
      ensures !(Calls(g)[k].branchType == "link" && Calls(g)[k].shape != "box")
    {
      if 3 <= k < 19 {
        GroupCallAt(g, k);
      }
    }
  }

  /** Only the first call of a generation starts the document. */
  lemma StartsOnlyFirst(g: Layout4)
    ensures forall k :: 1 <= k < |Calls(g)| ==> Calls(g)[k].branchType != "start"
  {
    CallTypes(g);
    forall k | 1 <= k < |Calls(g)|
      ensures Calls(g)[k].branchType != "start"
    {
      assert TypesOf(Calls(g))[k] == Calls(g)[k].branchType;
    }
  }

  // ---------------------------------------------------------------------------
  // Link and joint maps

  /** Keys of earlier legs differ from the keys of leg `m`. */
  lemma OlderKeys(i: nat, m: nat)
    requires i < m < 4
    ensures DecimalString(2 * i) != DecimalString(2 * m)
    ensures DecimalString(2 * i) != DecimalString(2 * m + 1)
    ensures DecimalString(2 * i + 1) != DecimalString(2 * m)
    ensures DecimalString(2 * i + 1) != DecimalString(2 * m + 1)
  {
    DecimalDigits(2 * i);
    DecimalDigits(2 * i + 1);
    DecimalDigits(2 * m);
    DecimalDigits(2 * m + 1);
  }

  /** Key 2i of `link_map` names leg i's link and key 2i+1 its foot link, once leg i is written. */
  lemma {:induction false} LinkMapAt(n: nat, i: nat)
    requires i < n <= 4
    ensures DecimalString(2 * i) in LinkMap(n) && LinkMap(n)[DecimalString(2 * i)] == LegName(i)
    ensures DecimalString(2 * i + 1) in LinkMap(n) && LinkMap(n)[DecimalString(2 * i + 1)] == FootName(i)
  {
    if i < n - 1 {
      LinkMapAt(n - 1, i);
      AddLegKeeps(LinkMap(n - 1), n - 1, LegName(n - 1), FootName(n - 1), i);
    } else {
      assert n - 1 == i && LinkMap(n) == AddLeg(LinkMap(i), i, LegName(i), FootName(i));
      AddLegNewest(LinkMap(i), i, LegName(i), FootName(i));
    }
  }

  /** Key 2i of `joint_map` names leg i's hip joint and key 2i+1 its knee joint, once leg i is written. */
  lemma {:induction false} JointMapAt(n: nat, i: nat)
    requires i < n <= 4
    ensures DecimalString(2 * i) in JointMap(n) && JointMap(n)[DecimalString(2 * i)] == HipName(i)
    ensures DecimalString(2 * i + 1) in JointMap(n) && JointMap(n)[DecimalString(2 * i + 1)] == KneeName(i)
  {
    if i < n - 1 {
      JointMapAt(n - 1, i);
      AddLegKeeps(JointMap(n - 1), n - 1, HipName(n - 1), KneeName(n - 1), i);
    } else {
      assert n - 1 == i && JointMap(n) == AddLeg(JointMap(i), i, HipName(i), KneeName(i));
      AddLegNewest(JointMap(i), i, HipName(i), KneeName(i));
    }
  }

  /** Adding leg i to a map puts its two entries under keys "2i" and "2i+1". */
  lemma AddLegNewest(m: map<string, string>, i: nat, first: string, second: string)
    requires i < 4 && m.Keys == KeysUpTo(2 * i) && |m| == 2 * i
    ensures var updated, a, b := AddLeg(m, i, first, second), DecimalString(2 * i), DecimalString(2 * i + 1);
      a in updated && updated[a] == first && b in updated && updated[b] == second
  {
    var a, b := DecimalString(2 * i), DecimalString(2 * i + 1);
    DecimalDigits(2 * i);
    DecimalDigits(2 * i + 1);
    assert a[0] != b[0];
    UpdatesSet(m, AddLeg(m, i, first, second), a, b, first, second);
  }

  /** Adding leg j to a map leaves the entries of an earlier leg i as they were. */
  lemma AddLegKeeps(m: map<string, string>, j: nat, first: string, second: string, i: nat)
    requires j < 4 && m.Keys == KeysUpTo(2 * j) && |m| == 2 * j && i < j
    requires DecimalString(2 * i) in m && DecimalString(2 * i + 1) in m
    ensures var updated, a, b := AddLeg(m, j, first, second), DecimalString(2 * i), DecimalString(2 * i + 1);
      a in updated && updated[a] == m[a] && b in updated && updated[b] == m[b]
  {
    var a, b := DecimalString(2 * j), DecimalString(2 * j + 1);
    OlderKeys(i, j);
    UpdatesKeep(m, AddLeg(m, j, first, second), a, b, first, second, DecimalString(2 * i));
    UpdatesKeep(m, AddLeg(m, j, first, second), a, b, first, second, DecimalString(2 * i + 1));
  }

  /** Two updates at other keys leave the value at `c` as it was. */
  lemma UpdatesKeep(m: map<string, string>, updated: map<string, string>,
                    a: string, b: string, va: string, vb: string, c: string)
    requires updated == m[a := va][b := vb] && c in m && c != a && c != b
    ensures c in updated && updated[c] == m[c]
  {
  }

  /** Two updates at different keys leave both values in place. */
  lemma UpdatesSet(m: map<string, string>, updated: map<string, string>,
                   a: string, b: string, va: string, vb: string)
    requires updated == m[a := va][b := vb] && a != b
    ensures a in updated && b in updated && updated[a] == va && updated[b] == vb
  {
  }

  /**
   The maps list the eight non-base links and the eight joints under keys
   "0" .. "7", in the order the calls write them.
   */
  lemma MapsMatchCalls(g: Layout4)
    ensures |LinkMap(4)| == 8 && |JointMap(4)| == 8
    ensures LinkMap(4).Keys == JointMap(4).Keys == {"0", "1", "2", "3", "4", "5", "6", "7"}
    ensures forall k :: 0 <= k < 8 ==> MapEntryMatches(g, k)
  {
    KeysAreDigits();
    forall k | 0 <= k < 8
      ensures MapEntryMatches(g, k)
    {
      MapEntryAt(g, k);
    }
  }

  /** Key k of both maps is present and names the (k+1)-th link and the k-th joint written. */
  predicate MapEntryMatches(g: Layout4, k: nat)
    requires k < 8
  {
    && k + 1 < |LinkNames(g)| && k < |JointNames(g)|
    && DecimalString(k) in LinkMap(4) && LinkMap(4)[DecimalString(k)] == LinkNames(g)[k + 1]
    && DecimalString(k) in JointMap(4) && JointMap(4)[DecimalString(k)] == JointNames(g)[k]
  }

  lemma MapEntryAt(g: Layout4, k: nat)
    requires k < 8
    ensures MapEntryMatches(g, k)
  {
    LinkNamesAre(g);
    JointNamesAre(g);
    assert LinkNames(g)[k + 1] == LegLinkNames(4)[k];
    LinkEntryAt(k);
    JointEntryAt(k);
  }

  lemma LinkEntryAt(k: nat)
    requires k < 8
    ensures DecimalString(k) in LinkMap(4) && LinkMap(4)[DecimalString(k)] == LegLinkNames(4)[k]
  {
    var i := k / 2;
    LinkMapAt(4, i);
    if k % 2 == 0 {
      assert k == 2 * i;
    } else {
      assert k == 2 * i + 1;
    }
  }

  lemma JointEntryAt(k: nat)
    requires k < 8
    ensures DecimalString(k) in JointMap(4) && JointMap(4)[DecimalString(k)] == LegJointNames(4)[k]
  {
    var i := k / 2;
    JointMapAt(4, i);
    if k % 2 == 0 {
      assert k == 2 * i;
    } else {
      assert k == 2 * i + 1;
    }
  }

  lemma KeysAreDigits()
    ensures KeysUpTo(8) == {"0", "1", "2", "3", "4", "5", "6", "7"}
  {
    DecimalDigits(0); DecimalDigits(1); DecimalDigits(2); DecimalDigits(3);
    DecimalDigits(4); DecimalDigits(5); DecimalDigits(6); DecimalDigits(7);
    assert KeysUpTo(8) == {DecimalString(0), DecimalString(1), DecimalString(2), DecimalString(3),
                           DecimalString(4), DecimalString(5), DecimalString(6), DecimalString(7)};
  }
}

=== FILE: urdf_wrapper.dfy ===
/**
 The URDF document builder. One call of `Branch` is one construction of the
 Python class `URDFWrapper`: it dispatches on the branch type and either replaces
 the file with the document header (`start`) or appends the lines of one
 block to it (`materials`, `link`, `joint`, `end`).

 The file is the sequence of records written so far, one per `write_print`
 call, each without its trailing newline. How numbers are rendered as text
 (three decimals, or plain) is a parameter of every call, so block structure
 is stated independently of the digits.
 */
module UrdfWrapper {
  import opened Geometry
  import opened Markup

  /** Number rendering: `fixed3` is the `{:.3f}` format, `plain` the bare `{}` format. */
  datatype Numerals = Numerals(fixed3: real -> string, plain: real -> string)

  /**
   The keyword arguments of one `URDFWrapper` construction. Arguments that
   `URDFWrapper` leaves as None are given placeholder values (a zero vector, the
   text "None"); they are only read by the branch types that need them.
   */
  datatype BranchArgs = BranchArgs(
    branchType: string,
    branchTitle: string,
    branchName: string,
    size: Vec3,
    shape: string,
    parent: string,
    child: string,
    axis: string,
    origin: Vec3,
    color: string,
    jointType: string)

  /** The constructor's defaults for every keyword argument but the branch type. */
  function WithDefaults(branchType: string): BranchArgs {
    BranchArgs(branchType, "NEW BRANCH", "NEW BRANCH", Zero, "box",
               "None", "None", "None", Zero, "None", "None")
  }

  /** `Exception('Invalid Shape')`, and the failing `assert volume is float` of the sphere branch. */
  datatype BranchError = InvalidShape | SphereVolumeNotFloat

  /** The file after a call: the call finished, or raised after writing what it had written. */
  datatype Written = Written(file: seq<string>) | Raised(error: BranchError, file: seq<string>)

  // ---------------------------------------------------------------------------
  // Single lines

  const XmlDeclaration := "<?xml version=\"1.0\"?>"
  const RobotPrefix := "<robot name=\""
  const RobotClose := "</robot>"
  const LinkPrefix := "<link name=\""
  const ParentPrefix := "<parent link=\""
  const ChildPrefix := "<child link=\""
  const MaterialPrefix := "<material name=\""
  const JointPrefix := "<joint name=\""
  const AxisPrefix := "<axis xyz=\""
  const BoxSizePrefix := "<box size=\""
  const LinkOriginPrefix := "<origin rpy=\"0 0 0\" xyz=\""
  const JointOriginPrefix := "<origin xyz=\""
  const MassPrefix := "<mass value=\""
  const TypeInfix := "\" type=\""
  const OpenSuffix := "\">"
  const EmptySuffix := "\"/>"

  function RobotOpen(name: string): string {
    RobotPrefix + name + OpenSuffix
  }

  /** The title comment; it starts with a newline, so in the file it follows a blank line. */
  function TitleComment(title: string): string {
    "\n<!--" + title + " -->>"
  }

  function OpenTag(tag: string): string {
    "<" + tag + ">"
  }

  function CloseTag(tag: string): string {
    "</" + tag + ">"
  }

  /** Three numbers separated by single spaces, as in `"{0} {1} {2}".format(...)`. */
  function Triple(render: real -> string, v: Vec3): string {
    render(v.x) + " " + render(v.y) + " " + render(v.z)
  }

  function BoxSizeLine(num: Numerals, size: Vec3): string {
    BoxSizePrefix + Triple(num.fixed3, size) + EmptySuffix
  }

  /** A link-frame origin: zero rotation, position with three decimals. */
  function LinkOriginLine(num: Numerals, origin: Vec3): string {
    LinkOriginPrefix + Triple(num.fixed3, origin) + EmptySuffix
  }

  /** A joint origin: position rendered plainly. */
  function JointOriginLine(num: Numerals, origin: Vec3): string {
    JointOriginPrefix + Triple(num.plain, origin) + EmptySuffix
  }

  function MaterialRef(color: string): string {
    MaterialPrefix + color + EmptySuffix
  }

  function MassLine(num: Numerals, mass: real): string {
    MassPrefix + num.fixed3(mass) + EmptySuffix
  }

  /** The joint limits, the same for every joint: effort 1000.0, velocity 10.0, range -3.14 .. 3.14. */
  const LimitLine := "<limit effort=\"" + "1000.0" + "\" velocity=\"" + "10.0"
                     + "\" lower=\"" + "-3.14" + "\" upper=\"" + "3.14" + "\" />"

  // ---------------------------------------------------------------------------
  // Blocks

  /** The geometry element of a box. */
  function GeometryLines(num: Numerals, size: Vec3): (r: seq<string>)
    ensures |r| == 3
    ensures Unwrap(BoxSizePrefix, EmptySuffix, r[1]) == Some(Triple(num.fixed3, size))
  {
    UnwrapWrap(BoxSizePrefix, EmptySuffix, Triple(num.fixed3, size));
    [OpenTag("geometry"), BoxSizeLine(num, size), CloseTag("geometry")]
  }

  /** Visual: geometry, origin, then a reference to the surface material. */
  function VisualLines(num: Numerals, args: BranchArgs): (r: seq<string>)
    ensures |r| == 7
    ensures r[1..4] == GeometryLines(num, args.size)
    ensures Unwrap(LinkOriginPrefix, EmptySuffix, r[4]) == Some(Triple(num.fixed3, args.origin))
    ensures Unwrap(MaterialPrefix, EmptySuffix, r[5]) == Some(args.color)
  {
    UnwrapWrap(LinkOriginPrefix, EmptySuffix, Triple(num.fixed3, args.origin));
    UnwrapWrap(MaterialPrefix, EmptySuffix, args.color);
    [OpenTag("visual")] + GeometryLines(num, args.size)
    + [LinkOriginLine(num, args.origin), MaterialRef(args.color), CloseTag("visual")]
  }

  /** Collision: geometry and origin, no material. */
  function CollisionLines(num: Numerals, args: BranchArgs): (r: seq<string>)
    ensures |r| == 6
    ensures r[1..4] == GeometryLines(num, args.size)
    ensures Unwrap(LinkOriginPrefix, EmptySuffix, r[4]) == Some(Triple(num.fixed3, args.origin))
  {
    UnwrapWrap(LinkOriginPrefix, EmptySuffix, Triple(num.fixed3, args.origin));
    [OpenTag("collision")] + GeometryLines(num, args.size)
    + [LinkOriginLine(num, args.origin), CloseTag("collision")]
  }

  /** The inertia element: the diagonal rendered plainly, every off-diagonal term the literal 0.0. */
  function InertiaLines(num: Numerals, inertia: Vec3): (r: seq<string>)
    ensures |r| == 4
    ensures Unwrap("ixx=\"", "\" ixy=\"0.0\"", r[1]) == Some(num.plain(inertia.x))
    ensures Unwrap("ixz=\"0.0\" iyy=\"", "\"", r[2]) == Some(num.plain(inertia.y))
    ensures Unwrap("iyz=\"0.0\" izz=\"", EmptySuffix, r[3]) == Some(num.plain(inertia.z))
  {
    UnwrapWrap("ixx=\"", "\" ixy=\"0.0\"", num.plain(inertia.x));
    UnwrapWrap("ixz=\"0.0\" iyy=\"", "\"", num.plain(inertia.y));
    UnwrapWrap("iyz=\"0.0\" izz=\"", EmptySuffix, num.plain(inertia.z));
    [ "<inertia",
      "ixx=\"" + num.plain(inertia.x) + "\" ixy=\"0.0\"",
      "ixz=\"0.0\" iyy=\"" + num.plain(inertia.y) + "\"",
      "iyz=\"0.0\" izz=\"" + num.plain(inertia.z) + EmptySuffix ]
  }

  function InertialLines(num: Numerals, mass: real, inertia: Vec3): (r: seq<string>)
    ensures |r| == 7
    ensures Unwrap(MassPrefix, EmptySuffix, r[1]) == Some(num.fixed3(mass))
    ensures r[2..6] == InertiaLines(num, inertia)
  {
    UnwrapWrap(MassPrefix, EmptySuffix, num.fixed3(mass));
    [OpenTag("inertial"), MassLine(num, mass)] + InertiaLines(num, inertia) + [CloseTag("inertial")]
  }

  /** The fixed contact block: every friction value is 5. */
  const ContactLines: seq<string> := [
    "<contact>",
    "<rolling_friction value=\"5\"/>",
    "<spinning_friction value=\"5\"/>",
    "<sliding_friction value=\"5\"/>",
    "<lateral_friction value=\"5\"/>",
    "</contact>"
  ]

  /** The two materials, in declaration order, with their RGBA colours. */
  const Palette: seq<(string, string)> := [("blue", "0 0 0.8 1"), ("white", "1 1 1 1")]

  /** The definition of one material: open with its name, its colour, close. */
  function MaterialBlock(material: (string, string)): seq<string> {
    [ MaterialPrefix + material.0 + OpenSuffix,
      "<color rgba=\"" + material.1 + EmptySuffix,
      CloseTag("material") ]
  }

  /** The definitions of the given materials, three lines each, in the given order. */
  function MaterialLines(materials: seq<(string, string)>): (r: seq<string>)
    ensures |r| == 3 * |materials|
    ensures forall k :: 0 <= k < |materials| ==> r[3 * k..3 * k + 3] == MaterialBlock(materials[k])
  {
    if materials == [] then []
    else
      var rest := MaterialLines(materials[1..]);
      MaterialLinesStep(MaterialBlock(materials[0]), rest, materials);
      MaterialBlock(materials[0]) + rest
  }

  lemma MaterialLinesStep(head: seq<string>, rest: seq<string>, materials: seq<(string, string)>)
    requires |materials| > 0 && head == MaterialBlock(materials[0])
    requires |rest| == 3 * (|materials| - 1)
    requires forall k :: 0 <= k < |materials| - 1 ==>
      rest[3 * k..3 * k + 3] == MaterialBlock(materials[1..][k])
    ensures forall k :: 0 <= k < |materials| ==>
      (head + rest)[3 * k..3 * k + 3] == MaterialBlock(materials[k])
  {
    forall k | 0 <= k < |materials|
      ensures (head + rest)[3 * k..3 * k + 3] == MaterialBlock(materials[k])
    {
      if k > 0 {
        var j := k - 1;
        assert 3 * k == 3 * j + 3;
        assert (head + rest)[3 * k..3 * k + 3] == rest[3 * j..3 * j + 3];
        assert materials[1..][j] == materials[k];
        assert rest[3 * j..3 * j + 3] == MaterialBlock(materials[1..][j]);
      }
    }
  }

  /** A link block for a box: the shape check, then the link element. */
  function LinkLines(num: Numerals, args: BranchArgs): (r: seq<string>)
    requires args.shape == "box"
    ensures |r| == 28
  {
    var mass := BoxMass(args.size);
    [LinkPrefix + args.branchName + OpenSuffix]
    + VisualLines(num, args)
    + CollisionLines(num, args)
    + InertialLines(num, mass, BoxInertia(args.size))
    + ContactLines
    + [CloseTag("link")]
  }

  /**
   A link block is, in order: the opening line with the link's name, the
   visual element, the collision element, the inertial element with the box's
   mass and inertia, the contact element and the closing line.
   */
  lemma LinkBlockOrder(num: Numerals, args: BranchArgs)
    requires args.shape == "box"
    ensures var r := LinkLines(num, args);
      && r[0] == LinkPrefix + args.branchName + OpenSuffix && r[27] == CloseTag("link")
      && r[1..8] == VisualLines(num, args) && r[8..14] == CollisionLines(num, args)
      && r[14..21] == InertialLines(num, BoxMass(args.size), BoxInertia(args.size))
      && r[21..27] == ContactLines
  {
  }

  /**
   A branch left at its defaults has the requested type, is named and titled
   NEW BRANCH, and has the shape `box`. Size and origin default to None in
   `URDFWrapper`; their placeholders here say nothing about what it writes.
   */
  lemma DefaultBranch(branchType: string)
    ensures var args := WithDefaults(branchType);
      && args.branchType == branchType && args.branchName == args.branchTitle == "NEW BRANCH"
      && args.shape == "box"
  {
  }

  /** The link branch after its title comment: a box block, or the shape error. */
  function Link(num: Numerals, args: BranchArgs): (r: Written)
    ensures r.Written? <==> args.shape == "box"
    ensures r.Raised? ==> r.file == [] && (r.error == SphereVolumeNotFloat <==> args.shape == "sphere")
  {
    if args.shape == "box" then Written(LinkLines(num, args))
    else if args.shape == "sphere" then Raised(SphereVolumeNotFloat, [])
    else Raised(InvalidShape, [])
  }

  /** A joint block: name and type, parent, child, axis, origin, fixed limits. */
  function JointLines(num: Numerals, args: BranchArgs): (r: seq<string>)
    ensures |r| == 7
    ensures r[1] == ParentPrefix + args.parent + EmptySuffix
    ensures r[2] == ChildPrefix + args.child + EmptySuffix
    ensures r[5] == LimitLine && r[6] == CloseTag("joint")
    ensures Unwrap(JointPrefix, TypeInfix + args.jointType + OpenSuffix, r[0]) == Some(args.branchName)
    ensures Unwrap(JointPrefix + args.branchName + TypeInfix, OpenSuffix, r[0]) == Some(args.jointType)
    ensures Unwrap(AxisPrefix, EmptySuffix, r[3]) == Some(args.axis)
    ensures Unwrap(JointOriginPrefix, EmptySuffix, r[4]) == Some(Triple(num.plain, args.origin))
  {
    var header := JointPrefix + args.branchName + TypeInfix + args.jointType + OpenSuffix;
    assert header == JointPrefix + args.branchName + (TypeInfix + args.jointType + OpenSuffix);
    UnwrapWrap(JointPrefix, TypeInfix + args.jointType + OpenSuffix, args.branchName);
    UnwrapWrap(JointPrefix + args.branchName + TypeInfix, OpenSuffix, args.jointType);
    UnwrapWrap(AxisPrefix, EmptySuffix, args.axis);
    UnwrapWrap(JointOriginPrefix, EmptySuffix, Triple(num.plain, args.origin));
    [ JointPrefix + args.branchName + TypeInfix + args.jointType + OpenSuffix,
      ParentPrefix + args.parent + EmptySuffix,
      ChildPrefix + args.child + EmptySuffix,
      AxisPrefix + args.axis + EmptySuffix,
      JointOriginLine(num, args.origin),
      LimitLine,
      CloseTag("joint") ]
  }

  // ---------------------------------------------------------------------------
  // Dispatch

  predicate Titled(branchType: string) {
    branchType == "link" || branchType == "joint" || branchType == "materials"
  }

  predicate Known(branchType: string) {
    Titled(branchType) || branchType == "start" || branchType == "end"
  }

  /** The lines a titled branch writes after its comment (for a link: before a possible error). */
  function BlockOf(num: Numerals, args: BranchArgs): Written
    requires Titled(args.branchType)
  {
    if args.branchType == "link" then Link(num, args)
    else if args.branchType == "joint" then Written(JointLines(num, args))
    else Written(MaterialLines(Palette))
  }

  /** One construction of the wrapper against the current file contents. */
  function Branch(num: Numerals, args: BranchArgs, file: seq<string>): (r: Written)
    ensures args.branchType == "start" ==>
      r == Written([XmlDeclaration, RobotOpen(args.branchName)])
    ensures args.branchType != "start" ==> file <= r.file
    ensures args.branchType == "end" ==> r == Written(file + [RobotClose])
    ensures !Known(args.branchType) ==> r == Written(file)
    ensures Titled(args.branchType) ==>
      |r.file| > |file| && r.file[|file|] == TitleComment(args.branchTitle)
    ensures r.Raised? <==> args.branchType == "link" && args.shape != "box"
    ensures r.Raised? ==> r.file == file + [TitleComment(args.branchTitle)]
  {
    if Titled(args.branchType) then
      var titled := file + [TitleComment(args.branchTitle)];
      match BlockOf(num, args)
      case Written(lines) => Written(titled + lines)
      case Raised(e, _) => Raised(e, titled)
    else if args.branchType == "start" then
      Written([XmlDeclaration, RobotOpen(args.branchName)])
    else if args.branchType == "end" then
      Written(file + [RobotClose])
    else
      Written(file)
  }

  // ---------------------------------------------------------------------------
  // Properties of the builder

  /** `start` truncates: what it leaves does not depend on what was there. */
  lemma StartReplaces(num: Numerals, args: BranchArgs, file1: seq<string>, file2: seq<string>)
    requires args.branchType == "start"
    ensures Branch(num, args, file1) == Branch(num, args, file2)
    ensures Branch(num, args, file1).file == [XmlDeclaration, RobotPrefix + args.branchName + OpenSuffix]
  {
  }

  /**
   Every branch type but `start` only appends, and what it appends does not
   depend on the prior contents: it is what the call writes to an empty file.
   */
  lemma OthersAppend(num: Numerals, args: BranchArgs, file: seq<string>)
    requires args.branchType != "start"
    ensures Branch(num, args, file).file == file + Branch(num, args, []).file
    ensures Branch(num, args, file).Raised? == Branch(num, args, []).Raised?
  {
    if Titled(args.branchType) {
      assert file + [TitleComment(args.branchTitle)] == file + ([] + [TitleComment(args.branchTitle)]);
    }
  }

  /** An invalid shape raises after the title comment and before any line of the link element. */
  lemma InvalidShapeWritesOnlyTitle(num: Numerals, args: BranchArgs, file: seq<string>)
    requires args.branchType == "link" && args.shape != "box" && args.shape != "sphere"
    ensures Branch(num, args, file) == Raised(InvalidShape, file + [TitleComment(args.branchTitle)])
    ensures forall k :: |file| <= k < |Branch(num, args, file).file| ==>
      Branch(num, args, file).file[k] != LinkPrefix + args.branchName + OpenSuffix
  {
    var comment := TitleComment(args.branchTitle);
    var open := LinkPrefix + args.branchName + OpenSuffix;
    assert comment[0] == '\n' && open[0] == '<';
  }

  /** A link call appends its title and then a 28-line link element: 29 records. */
  lemma LinkAppends(num: Numerals, args: BranchArgs, file: seq<string>)
    requires args.branchType == "link" && args.shape == "box"
    ensures Branch(num, args, file)
         == Written(file + [TitleComment(args.branchTitle)] + LinkLines(num, args))
    ensures |Branch(num, args, file).file| == |file| + 29
  {
  }

  /** A joint call appends its title and a 7-line joint element: 8 records. */
  lemma JointAppends(num: Numerals, args: BranchArgs, file: seq<string>)
    requires args.branchType == "joint"
    ensures Branch(num, args, file)
         == Written(file + [TitleComment(args.branchTitle)] + JointLines(num, args))
    ensures |Branch(num, args, file).file| == |file| + 8
  {
  }

  /** A materials call appends its title and the two material definitions, blue then white. */
  lemma MaterialsAppend(num: Numerals, args: BranchArgs, file: seq<string>)
    requires args.branchType == "materials"
    ensures var r := Branch(num, args, file).file;
      && |r| == |file| + 7
      && r[|file| + 1] == MaterialPrefix + "blue" + OpenSuffix
      && r[|file| + 2] == "<color rgba=\"0 0 0.8 1\"/>"
      && r[|file| + 3] == "</material>"
      && r[|file| + 4] == MaterialPrefix + "white" + OpenSuffix
      && r[|file| + 5] == "<color rgba=\"1 1 1 1\"/>"
      && r[|file| + 6] == "</material>"
  {
    var m := MaterialLines(Palette);
    assert m[0..3] == MaterialBlock(Palette[0]);
    assert m[3..6] == MaterialBlock(Palette[1]);
  }

  /** The limit line of a joint is the same whatever the joint. */
  lemma JointLimitFixed(num1: Numerals, a1: BranchArgs, num2: Numerals, a2: BranchArgs)
    ensures JointLines(num1, a1)[5] == JointLines(num2, a2)[5] == LimitLine
  {
  }

  /** The contact block and the off-diagonal inertia terms are the same for every link. */
  lemma FixedInertialAndContact(num: Numerals, args: BranchArgs)
    requires args.shape == "box"
    ensures var r := LinkLines(num, args);
      && r[21..27] == ContactLines
      && r[16] == "<inertia"
      && EndsWith(r[17], "\" ixy=\"0.0\"")
      && StartsWith(r[18], "ixz=\"0.0\" iyy=\"")
      && StartsWith(r[19], "iyz=\"0.0\" izz=\"")
  {
    var r := LinkLines(num, args);
    var inertia := BoxInertia(args.size);
    LinkBlockOrder(num, args);
    assert r[14..21] == InertialLines(num, BoxMass(args.size), inertia);
    assert r[17] == "ixx=\"" + num.plain(inertia.x) + "\" ixy=\"0.0\"";
    assert r[18] == "ixz=\"0.0\" iyy=\"" + (num.plain(inertia.y) + "\"");
    assert r[19] == "iyz=\"0.0\" izz=\"" + (num.plain(inertia.z) + EmptySuffix);
  }

  // ---------------------------------------------------------------------------
  // Reading blocks back

  /**
   Reading a link block back: its first line gives the link's name, its visual
   element refers to the link's colour, and no line of its collision element
   refers to a material.
   */
  lemma LinkBlockReadBack(num: Numerals, args: BranchArgs)
    requires args.shape == "box"
    ensures Unwrap(LinkPrefix, OpenSuffix, LinkLines(num, args)[0]) == Some(args.branchName)
    ensures Unwrap(MaterialPrefix, EmptySuffix, LinkLines(num, args)[6]) == Some(args.color)
    ensures Unwrap(MassPrefix, EmptySuffix, LinkLines(num, args)[15])
         == Some(num.fixed3(BoxMass(args.size)))
    ensures forall k :: 8 <= k < 14 ==> Unwrap(MaterialPrefix, EmptySuffix, LinkLines(num, args)[k]) == None
  {
    var r := LinkLines(num, args);
    LinkBlockOrder(num, args);
    UnwrapWrap(LinkPrefix, OpenSuffix, args.branchName);
    assert r[6] == VisualLines(num, args)[5];
    UnwrapWrap(MaterialPrefix, EmptySuffix, args.color);
    assert r[15] == InertialLines(num, BoxMass(args.size), BoxInertia(args.size))[1];
    UnwrapWrap(MassPrefix, EmptySuffix, num.fixed3(BoxMass(args.size)));
    CollisionHasNoMaterial(num, args);
    forall k | 8 <= k < 14
      ensures Unwrap(MaterialPrefix, EmptySuffix, r[k]) == None
    {
      assert r[k] == CollisionLines(num, args)[k - 8];
    }
  }

  /**
   Reading the geometry back from a link block: both size lines give the box
   size and both origin lines the origin, with three decimals, and the
   inertia lines give the box's principal moments.
   */
  lemma LinkGeometryReadBack(num: Numerals, args: BranchArgs)
    requires args.shape == "box"
    ensures var r, size, origin := LinkLines(num, args), Triple(num.fixed3, args.size), Triple(num.fixed3, args.origin);
      && Unwrap(BoxSizePrefix, EmptySuffix, r[3]) == Some(size)
      && Unwrap(BoxSizePrefix, EmptySuffix, r[10]) == Some(size)
      && Unwrap(LinkOriginPrefix, EmptySuffix, r[5]) == Some(origin)
      && Unwrap(LinkOriginPrefix, EmptySuffix, r[12]) == Some(origin)
    ensures var r, inertia := LinkLines(num, args), BoxInertia(args.size);
      && Unwrap("ixx=\"", "\" ixy=\"0.0\"", r[17]) == Some(num.plain(inertia.x))
      && Unwrap("ixz=\"0.0\" iyy=\"", "\"", r[18]) == Some(num.plain(inertia.y))
      && Unwrap("iyz=\"0.0\" izz=\"", EmptySuffix, r[19]) == Some(num.plain(inertia.z))
  {
    var r := LinkLines(num, args);
    LinkBlockOrder(num, args);
    var visual, collision := VisualLines(num, args), CollisionLines(num, args);
    var geometry := GeometryLines(num, args.size);
    assert r[3] == visual[2] == geometry[1];
    assert r[10] == collision[2] == geometry[1];
    assert r[5] == visual[4] && r[12] == collision[4];
    var inertial := InertialLines(num, BoxMass(args.size), BoxInertia(args.size));
    var inertia := InertiaLines(num, BoxInertia(args.size));
    assert r[17] == inertial[3] == inertia[1];
    assert r[18] == inertial[4] == inertia[2];
    assert r[19] == inertial[5] == inertia[3];
  }

  /** No line of a collision element is a material reference. */
  lemma CollisionHasNoMaterial(num: Numerals, args: BranchArgs)
    ensures forall k :: 0 <= k < 6 ==> Unwrap(MaterialPrefix, EmptySuffix, CollisionLines(num, args)[k]) == None
  {
    var c := CollisionLines(num, args);
    forall k | 0 <= k < 6
      ensures Unwrap(MaterialPrefix, EmptySuffix, c[k]) == None
    {
      assert c[k][1] != 'm';
      DiffersAt(MaterialPrefix, EmptySuffix, c[k], 1);
    }
  }

  /**
   Reading a joint block back: exactly one line names a parent link and
   exactly one a child link, and they give the joint's parent and child.
   */
  lemma JointBlockReadBack(num: Numerals, args: BranchArgs)
    ensures Unwrap(ParentPrefix, EmptySuffix, JointLines(num, args)[1]) == Some(args.parent)
    ensures Unwrap(ChildPrefix, EmptySuffix, JointLines(num, args)[2]) == Some(args.child)
    ensures forall k :: 0 <= k < 7 && k != 1 ==> Unwrap(ParentPrefix, EmptySuffix, JointLines(num, args)[k]) == None
    ensures forall k :: 0 <= k < 7 && k != 2 ==> Unwrap(ChildPrefix, EmptySuffix, JointLines(num, args)[k]) == None
  {
    var r := JointLines(num, args);
    UnwrapWrap(ParentPrefix, EmptySuffix, args.parent);
    UnwrapWrap(ChildPrefix, EmptySuffix, args.child);
    JointLineLetters(num, args);
    forall k | 0 <= k < 7 && k != 1
      ensures Unwrap(ParentPrefix, EmptySuffix, r[k]) == None
    {
      assert r[k][1] != 'p';
      DiffersAt(ParentPrefix, EmptySuffix, r[k], 1);
    }
    forall k | 0 <= k < 7 && k != 2
      ensures Unwrap(ChildPrefix, EmptySuffix, r[k]) == None
    {
      assert r[k][1] != 'c';
      DiffersAt(ChildPrefix, EmptySuffix, r[k], 1);
    }
  }

  /** The second character of each joint line tells the lines apart: j, p, c, a, o, l, /. */
  lemma JointLineLetters(num: Numerals, args: BranchArgs)
    ensures forall k :: 0 <= k < 7 ==> |JointLines(num, args)[k]| > 1
    ensures JointLines(num, args)[0][1] == 'j' && JointLines(num, args)[1][1] == 'p'
    ensures JointLines(num, args)[2][1] == 'c' && JointLines(num, args)[3][1] == 'a'
    ensures JointLines(num, args)[4][1] == 'o' && JointLines(num, args)[5][1] == 'l'
    ensures JointLines(num, args)[6][1] == '/'
  {
    var r := JointLines(num, args);
    assert r[0][1] == 'j' && r[1][1] == 'p' && r[2][1] == 'c' && r[3][1] == 'a';
    var origin := JointOriginLine(num, args.origin);
    assert origin == JointOriginPrefix + (Triple(num.plain, args.origin) + EmptySuffix);
    assert r[4][1] == origin[1] == 'o';
    assert r[5] == LimitLine && LimitLine[1] == 'l';
    assert r[6] == CloseTag("joint") && CloseTag("joint")[1] == '/';
  }
}
